=== FILE: README.md ===
# LED controller mockup — verified model of its state logic

The repository is a single-page web application. It presents a 32-output ART-NET LED controller with:

- a simulated LCD control panel;
- an interactive board viewer;
- an export panel for the Celus design platform.

All of its behaviour is local component state updated by event handlers. This project models those handlers as pure Dafny functions over immutable datatypes, and proves what each one promises.

| module | file | what it models |
|---|---|---|
| `ControlDisplay` | `control_display.dfy` | The panel's menu machine: a current menu, a highlighted row and the four buttons `up`, `down`, `enter` and `back`. It also holds the four option lists (main, ART-NET, test, effects). On the settings screen the buttons act on the main list while the screen itself shows no rows. |
| `LedController` | `led_controller.dfy` | The bank of 32 outputs (`universes`, `isActive`): the point updates, the header totals, and the network-mode to displayed-IP mapping. |
| `LedOutput` | `led_output.dfy` | One output card: the universe stepper clamped to [1, 8] with its disabled conditions, the CFG switch, and the `OUT nn` header. |
| `KiCadViewer` | `kicad_viewer.dfy` | The board viewer: layer visibility and opacity, exclusive component highlighting, reset, the zoom buttons clamped to [10, 500], the visible-layer count, and the lookup of the selected component. |
| `CelusIntegration` | `celus_integration.dfy` | The export handler: the JSON record, the download file name (lower-cased, white-space runs made `-`, fixed suffix), the Gerber download names (base name or `gerber-<i>`), and the `isExporting` flag. |
| `Text` | `text.dfy` | JavaScript `Number.prototype.toString` on integers, `padStart`, `toLowerCase` on ASCII, and the regular-expression class `\s`. |
| `Sequences` | `sequences.dfy` | `Array.map` with an index test (a point update), `Array.map`, and `Array.filter(...).length` together with its reference count. |
| `Wrappers` | `wrappers.dfy` | `Option` for JavaScript `undefined` and `null`, and `First` for `a[0]`. |

Modelling choices:

- Button presses, clicks and handler calls are functions from the old state to the new one.
- Sequences of inputs are folded by `Run`, `RunBank`, `Clicks`, `Zooms` and `Replay`.
- A handler that only reads an array element which may be missing returns an `Option`. For example, `opacity[0]` of an empty slider value is `None`.
- Pressing `enter` on a row past the end of the list makes JavaScript throw a `TypeError` before any state changes. It is modelled as the `TypeError` effect with the state kept. The lemma `ReachableIsValid` shows that this cannot happen from the initial screen.
- Three inputs are parameters: the export time stamp (`new Date().toISOString()`), whether the browser download succeeds, and the component props.

Three facts about `ControlDisplay.tsx` shape the menu model:

- Only `back` resets the highlighted row to 0. `enter` on the main menu opens a submenu with the same row still highlighted (`ControlDisplay.EnterOnMainNavigates`).
- There are exactly five menu tags. There are no network, IC or output-configuration menus and no draft/save configuration code. The component ignores every prop except `artnetStatus`, `universe` and `subnet`.
- The settings screen has no list of its own. Its buttons act on the main list, so `enter` there navigates exactly as on the main screen (`ControlDisplay.SettingsEnterIsMainEnter`). The screen itself renders no rows there (`ControlDisplay.ShownRows`).

## Model

| member | source | states |
|---|---|---|
| ControlDisplay.MainOptions | src/components/ControlDisplay.tsx:29-34 | The main list has four rows, and each row's action opens a menu. |
| ControlDisplay.ArtNetOptions | src/components/ControlDisplay.tsx:36-41 | The ART-NET list has four rows, and none of them carries an action; they only display values. |
| ControlDisplay.ThreeDigits | src/components/ControlDisplay.tsx:37-38 | The universe and subnet values are at least three characters long, and exactly three for 0..999. For a non-negative number they are all digits and read back as the number. A longer value is the plain rendering with no leading zero. |
| ControlDisplay.TestOptions | src/components/ControlDisplay.tsx:43-48 | The test list has four rows, and each row's action only logs. |
| ControlDisplay.EffectOptions | src/components/ControlDisplay.tsx:50-55 | The effects list has four rows, and each row's action only logs. |
| ControlDisplay.Options | src/components/ControlDisplay.tsx:57-64 | In every menu the buttons act on four rows. Main and settings both act on the main list. |
| ControlDisplay.ShownRows | src/components/ControlDisplay.tsx:110-163 | The LCD renders no rows exactly on settings. On every other menu it renders the rows the buttons act on. |
| ControlDisplay.SettingsActsOnHiddenMainList | src/components/ControlDisplay.tsx:57-64 | On settings the screen is blank while the buttons act on the main list. Elsewhere the four rendered rows are the rows acted on. |
| ControlDisplay.Press | src/components/ControlDisplay.tsx:66-90 | `up` gives max(0, i-1) and `down` gives min(3, i+1), both in the same menu. `back` gives (main, 0) from a submenu and changes nothing on main. `enter` keeps the index, and it throws exactly when the index is off the list. |
| ControlDisplay.EnterOnMainNavigates | src/components/ControlDisplay.tsx:76-78 | `enter` on main or settings at row k opens artnet, test, effects or settings for k = 0..3, with the index unchanged. |
| ControlDisplay.EnterInSubmenuStays | src/components/ControlDisplay.tsx:79-81 | `enter` in artnet, test or effects leaves menu and index unchanged. On an ART-NET row it has no effect at all. |
| ControlDisplay.EnterLogs | src/components/ControlDisplay.tsx:43-55 | `enter` on a test or effects row writes exactly that row's log message. |
| ControlDisplay.SettingsEnterIsMainEnter | src/components/ControlDisplay.tsx:57-63 | `enter` on settings at a valid row does exactly what it does on main. |
| ControlDisplay.PressPreservesValid | src/components/ControlDisplay.tsx:66-90 | From a valid index every button keeps the index in [0, 3], and `enter` does not throw. |
| ControlDisplay.RunPreservesValid | src/components/ControlDisplay.tsx:66-90 | Any sequence of presses from a valid state keeps the index in [0, 3]. |
| ControlDisplay.ReachableIsValid | src/components/ControlDisplay.tsx:26-27 | From the initial (main, 0), for any button sequence, the index stays in [0, 3] and the next `enter` cannot throw. |
| ControlDisplay.UpDownInverse | src/components/ControlDisplay.tsx:70-75 | `up` undoes `down` away from the last row, and `down` undoes `up` away from the first. |
| ControlDisplay.BackIdempotent | src/components/ControlDisplay.tsx:83-88 | A second `back` changes nothing. After one `back` the screen is (main, 0) or unchanged. |
| ControlDisplay.SubmenuExitOnlyByBack | src/components/ControlDisplay.tsx:66-90 | With no `back` among the presses, a submenu (artnet, test, effects) is never left. |
| LedController.InitialOutputs | src/pages/LEDController.tsx:33-35 | The bank starts with 32 outputs, each with one universe and inactive. |
| LedController.SetUniverses | src/pages/LEDController.tsx:68-72 | Only entry i changes, and only its `universes`, which becomes u. The length and all other entries are kept. An index off the bank changes nothing. |
| LedController.SetUniversesLastWins | src/pages/LEDController.tsx:68-72 | Two universe changes of the same output keep only the second. |
| LedController.Toggle | src/pages/LEDController.tsx:74-78 | Only entry i changes, and only its `isActive`, which flips. The length and all other entries are kept. |
| LedController.ToggleTwice | src/pages/LEDController.tsx:74-78 | Toggling the same output twice restores the bank. |
| LedController.TotalUniverses | src/pages/LEDController.tsx:93-95 | The `reduce` loop computes the sum of `universes` over the active outputs. |
| LedController.NoneActiveTotalsZero | src/pages/LEDController.tsx:93-95 | With no active output the total is 0. |
| LedController.ActiveUniversesUpdate | src/pages/LEDController.tsx:93-95 | Replacing one output changes the total by the difference of its old and new contributions. |
| LedController.ActiveOutputs | src/pages/LEDController.tsx:97 | The filtered length is the number of active positions. It is at most the bank length, and it is 0 exactly when no output is active. |
| LedController.InitialTotals | src/pages/LEDController.tsx:93-97 | The initial bank shows 0 active outputs and 0 universes. |
| LedController.ToggleTotals | src/pages/LEDController.tsx:74-78 | Toggling output i moves the total by exactly ±universes[i] and the active count by exactly ±1. The sign depends on its old state. |
| LedController.SetUniversesTotals | src/pages/LEDController.tsx:68-72 | A universe change never changes the active count. It moves the total by u - universes[i] when the output is active, and by 0 otherwise. |
| LedController.ApplyBank | src/pages/LEDController.tsx:220-228 | A card's switch or stepper click changes only that card's output, keeps the bank's length, and keeps every universe count in [1, 8]. A stepper click hands the card's clamped value to `handleUniverseChange`. |
| LedController.RunBankStaysInRange | src/pages/LEDController.tsx:220-228 | Any sequence of switch and stepper clicks from a bank in [1, 8] keeps every universe count in [1, 8] and the bank's length. |
| LedController.ReachableBankInRange | src/pages/LEDController.tsx:33-35 | From the mount bank, after any clicks, there are still 32 outputs and each has a universe count in [1, 8]. |
| LedController.CurrentIP | src/pages/LEDController.tsx:80-91 | Auto mode shows 192.168.1.105, broadcast mode shows 2.255.255.255, and fixed mode shows the configured address. |
| LedController.InitialIP | src/pages/LEDController.tsx:37-42 | On mount the network is in fixed mode, and the panel shows 192.168.1.100. |
| LedController.CurrentIPIsIPv4 | src/pages/LEDController.tsx:80-91 | If the configured address is a dotted-quad IPv4 address, the displayed address is one in every mode. |
| LedOutput.Decrement | src/components/LEDOutput.tsx:74 | `-` gives max(1, u-1): never below 1, and exactly one less above 1. |
| LedOutput.Increment | src/components/LEDOutput.tsx:86 | `+` gives min(8, u+1): never above 8, and exactly one more below 8. |
| LedOutput.Click | src/components/LEDOutput.tsx:70-90 | A click from a count in [1, 8], on either button, leaves the count in [1, 8]. |
| LedOutput.DisabledIffNoChange | src/components/LEDOutput.tsx:74-87 | In [1, 8], `-` is disabled (u <= 1) exactly when its clamp would not change u, and `+` (u >= 8) likewise. An enabled button moves u by exactly one. |
| LedOutput.ClickIsClamp | src/components/LEDOutput.tsx:70-90 | In [1, 8] the disabled attribute never changes the outcome: a click equals the clamp. |
| LedOutput.StepInverse | src/components/LEDOutput.tsx:74-86 | `-` undoes `+` below 8, and `+` undoes `-` above 1. |
| LedOutput.ClicksStayInRange | src/components/LEDOutput.tsx:70-90 | From u in [1, 8], any sequence of clicks keeps u in [1, 8]. |
| LedOutput.ToggleConfig | src/components/LEDOutput.tsx:52 | CFG switches whether the configuration panel is shown. |
| LedOutput.ToggleConfigTwice | src/components/LEDOutput.tsx:52 | Two CFG clicks restore the card. |
| LedOutput.InitialCardHidesPanel | src/components/LEDOutput.tsx:16 | A card mounts with its configuration panel hidden, and one CFG click shows it. |
| LedOutput.Label | src/components/LEDOutput.tsx:29 | The header is `OUT ` followed by digits that read back as the output number. It is at least six characters long, and exactly six below 100. From 10 on, the digits are the plain rendering with no added zero. |
| LedOutput.BankLabels | src/components/LEDOutput.tsx:29 | The headers of outputs 1 to 32 are six characters long and pairwise distinct. |
| KiCadViewer.InitialLayers | src/components/InteractiveKiCadViewer.tsx:148-154 | There are five layers, all visible. |
| KiCadViewer.InitialComponents | src/components/InteractiveKiCadViewer.tsx:164-228 | There are seven components, none highlighted. |
| KiCadViewer.InitialIdsDistinct | src/components/InteractiveKiCadViewer.tsx:164-228 | The built-in component ids are pairwise distinct. |
| KiCadViewer.ToggleLayer | src/components/InteractiveKiCadViewer.tsx:290-293 | Only layer i changes, and only its `visible`, which flips. The length, the other layers and the rest of the viewer are kept. |
| KiCadViewer.ToggleLayerTwice | src/components/InteractiveKiCadViewer.tsx:290-293 | Toggling a layer twice restores the viewer. |
| KiCadViewer.SetLayerOpacity | src/components/InteractiveKiCadViewer.tsx:303-307 | Only layer i changes, and only its opacity, which becomes the slider's first value (absent if the slider reported none). |
| KiCadViewer.OpacityLastWins | src/components/InteractiveKiCadViewer.tsx:303-307 | A second slider value for the same layer overrides the first. |
| KiCadViewer.OpacityKeepsVisibleCount | src/components/InteractiveKiCadViewer.tsx:303-307 | An opacity change keeps the visible-layer count. |
| KiCadViewer.VisibleLayerCount | src/components/InteractiveKiCadViewer.tsx:701 | The "active layers" figure is the number of visible layers. |
| KiCadViewer.ToggleLayerCount | src/components/InteractiveKiCadViewer.tsx:701 | Toggling a layer moves the visible count by exactly one, in the direction of the flip. |
| KiCadViewer.ComponentClick | src/components/InteractiveKiCadViewer.tsx:309-320 | The selection becomes the clicked id. The clicked component's highlight flips, every other highlight is cleared, and nothing else changes. |
| KiCadViewer.ClickHighlightsAtMostOne | src/components/InteractiveKiCadViewer.tsx:310-313 | With distinct ids, at most one component is highlighted after a click. |
| KiCadViewer.ResetView | src/components/InteractiveKiCadViewer.tsx:322-332 | The reset sets zoom 100, rotation 0 and no selection, and clears every highlight. Layers and the components' other fields are kept. |
| KiCadViewer.ResetViewClears | src/components/InteractiveKiCadViewer.tsx:322-326 | After a reset no component is highlighted, and a second reset changes nothing. |
| KiCadViewer.ZoomOut | src/components/InteractiveKiCadViewer.tsx:429 | Zoom-out gives max(10, z-25) and changes nothing else. |
| KiCadViewer.ZoomIn | src/components/InteractiveKiCadViewer.tsx:432 | Zoom-in gives min(500, z+25) and changes nothing else. |
| KiCadViewer.ZoomsStayInRange | src/components/InteractiveKiCadViewer.tsx:428-435 | From a zoom in [10, 500], any sequence of zoom buttons keeps it in range and changes nothing else. |
| KiCadViewer.ApplyKeepsSane | src/components/InteractiveKiCadViewer.tsx:290-332 | Every handler keeps the ids distinct, at most one component highlighted, and the zoom in [10, 500]. |
| KiCadViewer.ReplayKeepsSane | src/components/InteractiveKiCadViewer.tsx:290-332 | Any sequence of handler events keeps that invariant. |
| KiCadViewer.ReachableViewer | src/components/InteractiveKiCadViewer.tsx:148-228 | From the viewer on mount, after any sequence of layer, opacity, click, reset and zoom-button events, at most one component is highlighted and the zoom is in [10, 500]. |
| KiCadViewer.FindById | src/components/InteractiveKiCadViewer.tsx:351 | `find` returns the first component with that id, and returns none exactly when no component has it. |
| KiCadViewer.SelectedComponentData | src/components/InteractiveKiCadViewer.tsx:351 | The details show none exactly when nothing is selected or no component has the selected id. Otherwise they show the first component with that id. |
| KiCadViewer.FindByIdUnique | src/components/InteractiveKiCadViewer.tsx:351 | With distinct ids, looking up the id at position k finds that component. |
| KiCadViewer.ClickThenDetails | src/components/InteractiveKiCadViewer.tsx:309-320 | After clicking component k, the details panel shows component k with its highlight flipped. |
| CelusIntegration.CollapseSpaces | src/components/CelusIntegration.tsx:55 | Replacing white-space runs leaves no white space, and it never makes the text longer. |
| CelusIntegration.CollapseSpacesFixesNoSpace | src/components/CelusIntegration.tsx:55 | Text without white space is unchanged by the replacement. |
| CelusIntegration.CollapseSpacesIdempotent | src/components/CelusIntegration.tsx:55 | Replacing twice is the same as replacing once. |
| CelusIntegration.CollapseSpacesAppend | src/components/CelusIntegration.tsx:55 | When the cut does not fall inside a white-space run, replacing on a concatenation is replacing on each part. |
| CelusIntegration.ReplaceSpaceRuns | src/components/CelusIntegration.tsx:55 | A left-to-right scan that emits `-` at the start of each white-space run and copies other characters gives the same result as the replacement. |
| CelusIntegration.ExportFileName | src/components/CelusIntegration.tsx:55 | The name ends in `-celus-export.json`. Before the suffix it is the lower-cased name with white-space runs replaced, contains no white space and no upper-case ASCII letter. |
| CelusIntegration.ThreeWordsCollapse | src/components/CelusIntegration.tsx:55 | Three non-empty words separated by single spaces become the words joined by `-`. |
| CelusIntegration.DefaultExportFileName | src/components/CelusIntegration.tsx:21-55 | The bundled project `CONTROLADOR LED WS2811` exports as `controlador-led-ws2811-celus-export.json`. |
| CelusIntegration.LastSegment | src/components/CelusIntegration.tsx:86 | The base name is a suffix of the path with no `/`. It is preceded by `/` whenever it is not the whole path. |
| CelusIntegration.Split | src/components/CelusIntegration.tsx:86 | `split('/')` yields at least one piece, and no piece contains `/`. |
| CelusIntegration.SplitJoin | src/components/CelusIntegration.tsx:86 | Splitting on `/` and joining with `/` gives the path back, and the last piece is the base name. |
| CelusIntegration.DownloadName | src/components/CelusIntegration.tsx:86 | The download name is non-empty and has no `/`. It is the base name when that is non-empty. Otherwise it is `gerber-<index>`, which happens exactly when the path is empty or ends in `/`. |
| CelusIntegration.TrailingSlashFallback | src/components/CelusIntegration.tsx:86 | A path ending in `/` downloads as `gerber-<index>`. |
| CelusIntegration.LastSegmentAfterSlash | src/components/CelusIntegration.tsx:86 | `dir/name` has base name `name` when `name` has no `/`. |
| CelusIntegration.GerberNames | src/components/CelusIntegration.tsx:82-91 | There is one download name per Gerber file, in order, and none when the list is absent. |
| CelusIntegration.RootFileNames | src/components/CelusIntegration.tsx:82-91 | Files written `/name` (with no other `/`) download as `name`. |
| CelusIntegration.DefaultGerberNames | src/components/CelusIntegration.tsx:26-33 | The six bundled files download under their own names, the first as `led-controller.GTL`. |
| CelusIntegration.HandleExport | src/components/CelusIntegration.tsx:36-74 | The record has format `celus-import-v1` and carries the project and time stamp unchanged. The file name is the derived export name, and the toast is destructive exactly when the download failed. `isExporting` is false afterwards on both paths. |
| CelusIntegration.ExportReenablesButton | src/components/CelusIntegration.tsx:71-73 | After any run, successful or not, the export button (disabled while `isExporting`) is enabled again. |
| Text.IntToString | src/components/ControlDisplay.tsx:37-38 | `toString` of an integer is non-empty. It is all digits for a non-negative number, and a `-` followed by digits for a negative one. There is no leading zero: a non-negative rendering starts with `0` only for 0, and the digit after a `-` is never `0`. |
| Text.PadStart | src/components/ControlDisplay.tsx:37-38 | `padStart` gives length max(width, original length). It ends with the original text, preceded only by the fill character. |
| Text.NatToStringFits | src/components/ControlDisplay.tsx:37-38 | A number below 10^k renders in at most k digits, so padding to k adds exactly the missing zeros. |
| Text.IntToStringRoundTrip | src/components/ControlDisplay.tsx:37-38 | The decimal text of an integer reads back as that integer. |
| Text.PaddedNumberValue | src/components/ControlDisplay.tsx:37-38 | Zero-padding a number's digits to any width keeps them all digits and keeps their value. |
| Text.ToLower | src/components/CelusIntegration.tsx:55 | `toLowerCase` keeps the length and maps each character through the ASCII lower-casing. |
| Text.IsSpaceIsClass | src/components/CelusIntegration.tsx:55 | The `\s` test accepts exactly ECMAScript WhiteSpace or LineTerminator: tab, vertical tab, form feed, byte order mark, the Zs space separators, line feed, carriage return, and line and paragraph separator. |
| Text.ToLowerIdempotent | src/components/CelusIntegration.tsx:55 | Lower-casing is idempotent, and its result has no upper-case ASCII letter. |
| Text.LowerKeepsSpace | src/components/CelusIntegration.tsx:55 | Lower-casing neither creates nor removes white space, so the two steps of the file-name rule do not interfere. |
| Sequences.MapAll | src/components/InteractiveKiCadViewer.tsx:310-313 | `map` keeps the length and puts the image of each element at its position. |
| Wrappers.First | src/components/InteractiveKiCadViewer.tsx:305 | `opacity[0]` is `undefined` exactly for an empty array, and otherwise is the first element. |
| Sequences.MapAt | src/pages/LEDController.tsx:69-71 | `map` with an `index ===` test keeps the length. It replaces exactly the element at an in-range index with its image, and changes nothing for an index off the list. |
| Sequences.Filter | src/pages/LEDController.tsx:97 | `filter` is no longer than its input, and every kept element passes the test and comes from the input. |
| Sequences.FilterKeepsPassing | src/pages/LEDController.tsx:97 | Every element of the input that passes the test is in the filtered list. |
| Sequences.FilterCountsPositions | src/pages/LEDController.tsx:97 | The length of a filtered list is the number of positions that pass the test. |
| Sequences.FilterUpdate | src/pages/LEDController.tsx:97 | Replacing one element changes a filtered length by at most one, as the test on the old and new element says. |

## Left out

- Rendering, styling and icons are not modelled. This covers the JSX markup, the React Three Fiber scene, the Fabric.js canvas and the colour and size helpers. It is presentation only and works with floating-point positions.
- Audio playback and the toasts shown on a layer toggle or component click are not modelled. They are browser side effects that do not change component state.
- The DOM download steps of the export (`Blob`, `URL.createObjectURL`, the temporary link) are not modelled. They are browser I/O. Whether they throw is the `downloadSucceeds` parameter of `HandleExport`.
- The `setTimeout` staggering of the Gerber downloads and `window.open` for the Celus site are not modelled. They are timers and browser I/O; only the download names are modelled.
- The ART-NET packet counter is not modelled. It is driven by `setInterval` and `Math.random`.
- The floating-point `systemStats` are not modelled.
- `src/integrations/supabase/types.ts` is not modelled. It holds type declarations only.
- `ConnectionDiagram.tsx` is not modelled. It holds static node and edge literals plus a library call.
- The routing shell, the other pages and `NetworkPanel.tsx` are not modelled. They are presentation only.
- The viewer's sliders for zoom and rotation (`onValueChange`) are not modelled. They hand the library's value straight to the state, so there is nothing to prove beyond what the library does. The zoom slider's own bounds (10 and 500) match the button clamps. `KiCadViewer.ReachableViewer` ranges over the zoom buttons only.
- The viewer's view, side, grid, measurement and sound switches are not modelled. They are independent booleans and tags used only for rendering.
- The viewer's `components` prop is not modelled. The component ignores it in favour of its built-in list.
- A draft/committed configuration with a save action, and network, IC or output-configuration menus, are not modelled. `ControlDisplay.tsx` has no such code.
- Text.ToLower: lower-cases ASCII `A`-`Z` only. JavaScript `toLowerCase` also maps other Unicode letters, which the bundled project name does not contain.
- Text.IntToString: renders integers only. JavaScript would also render fractions and exponents for non-integral or very large numbers, which none of the callers pass.
- ControlDisplay.ThreeDigits: for a negative value only the minimum length is stated. The `-` sign is padded after like any other character, as `padStart` does.
- LedController.CurrentIPIsIPv4: states validity for canonical dotted-decimal addresses only. The configured address is free text in the source.
- CelusIntegration.HandleExport: the outcome of the download is one flag. The file name is always computed, while in the source a failure before line 55 would leave `a.download` unassigned; nothing observable reads it then.

=== FILE: celus_integration.dfy ===
/** The export panel: the JSON export record and its download file name, the
    Gerber download names, and the `isExporting` flag that disables the button. */
module CelusIntegration {
  import opened Wrappers
  import opened Text

  /** The length of the white-space run at the front of `s`. */
  function LeadingSpaces(s: string): (n: nat)
    ensures n <= |s|
    ensures forall i :: 0 <= i < n ==> IsSpace(s[i])
    ensures n < |s| ==> !IsSpace(s[n])
  {
    if |s| == 0 || !IsSpace(s[0]) then 0 else 1 + LeadingSpaces(s[1..])
  }

  /** The three facts above pin the run length down. */
  lemma LeadingSpacesUnique(s: string, n: nat)
    requires n <= |s|
    requires forall i :: 0 <= i < n ==> IsSpace(s[i])
    requires n < |s| ==> !IsSpace(s[n])
    ensures LeadingSpaces(s) == n
  {
  }

  /** `s` without its leading white-space run. */
  function DropSpaces(s: string): string {
    s[LeadingSpaces(s)..]
  }

  /** `s.replace(/\s+/g, '-')`: every maximal run of white space becomes a single `-`. */
  function CollapseSpaces(s: string): (r: string)
    ensures NoSpace(r)
    ensures |r| <= |s|
    decreases |s|
  {
    if |s| == 0 then ""
    else if IsSpace(s[0]) then "-" + CollapseSpaces(DropSpaces(s))
    else [s[0]] + CollapseSpaces(s[1..])
  }

  /** Text without white space passes through unchanged. */
  lemma {:induction false} CollapseSpacesFixesNoSpace(s: string)
    requires NoSpace(s)
    ensures CollapseSpaces(s) == s
    decreases |s|
  {
    if |s| > 0 {
      CollapseSpacesFixesNoSpace(s[1..]);
    }
  }

  /** Collapsing twice is collapsing once. */
  lemma CollapseSpacesIdempotent(s: string)
    ensures CollapseSpaces(CollapseSpaces(s)) == CollapseSpaces(s)
  {
    CollapseSpacesFixesNoSpace(CollapseSpaces(s));
  }

  predicate AllSpace(s: string) {
    forall i :: 0 <= i < |s| ==> IsSpace(s[i])
  }

  /** A leading run that covers all of `p` continues into `q`. */
  lemma DropSpacesAllSpace(p: string, q: string)
    requires AllSpace(p)
    ensures DropSpaces(p + q) == DropSpaces(q)
  {
    var s := p + q;
    var k := LeadingSpaces(q);
    forall i | 0 <= i < |p| + k
      ensures IsSpace(s[i])
    {
      if i >= |p| {
        assert s[i] == q[i - |p|];
      }
    }
    if |p| + k < |s| {
      assert s[|p| + k] == q[k];
    }
    LeadingSpacesUnique(s, |p| + k);
    assert s[|p| + k..] == q[k..];
  }

  /** A leading run that stops inside `p` leaves `q` untouched. */
  lemma DropSpacesStops(p: string, q: string)
    requires !AllSpace(p)
    ensures DropSpaces(p + q) == DropSpaces(p) + q
  {
    var s := p + q;
    var k := LeadingSpaces(p);
    assert k < |p|;
    assert s[k] == p[k];
    LeadingSpacesUnique(s, k);
    assert s[k..] == p[k..] + q;
  }

  /** Extending a collapsed text `r` by the character `c`: a white-space character adds `-` only
      when it starts a run (the input so far did not end in white space), any other character is copied. */
  function ExtendCollapsed(r: string, c: char, afterSpace: bool): string {
    if !IsSpace(c) then r + [c] else if afterSpace then r else r + "-"
  }

  predicate EndsInSpace(p: string) {
    |p| > 0 && IsSpace(p[|p| - 1])
  }

  /** The collapse of `p + [c]` predicted from the collapse of `p`. */
  function CollapseSnoc(p: string, c: char): string {
    ExtendCollapsed(CollapseSpaces(p), c, EndsInSpace(p))
  }

  /** Appending one character to the input extends the collapse as `CollapseSnoc` says. */
  lemma {:induction false} CollapseSpacesSnoc(p: string, c: char)
    ensures CollapseSpaces(p + [c]) == CollapseSnoc(p, c)
    decreases |p|, 1
  {
    if |p| == 0 {
      assert p + [c] == [c];
      assert [c][1..] == [];
      if IsSpace(c) {
        assert DropSpaces([c]) == [];
      }
    } else if !IsSpace(p[0]) {
      SnocAfterWord(p, c);
    } else if AllSpace(p) {
      SnocAfterSpaces(p, c);
    } else {
      SnocAfterRun(p, c);
    }
  }

  lemma {:induction false} SnocAfterWord(p: string, c: char)
    requires |p| > 0 && !IsSpace(p[0])
    ensures CollapseSpaces(p + [c]) == CollapseSnoc(p, c)
    decreases |p|, 0
  {
    assert (p + [c])[1..] == p[1..] + [c];
    assert (p + [c])[0] == p[0];
    CollapseSpacesSnoc(p[1..], c);
    ExtendAfterPrefix([p[0]], CollapseSpaces(p[1..]), c, EndsInSpace(p[1..]));
    if |p| > 1 {
      assert EndsInSpace(p[1..]) == EndsInSpace(p);
    }
  }

  lemma {:induction false} SnocAfterSpaces(p: string, c: char)
    requires |p| > 0 && IsSpace(p[0]) && AllSpace(p)
    ensures CollapseSpaces(p + [c]) == CollapseSnoc(p, c)
  {
    var s := p + [c];
    assert CollapseSpaces(s) == "-" + CollapseSpaces(DropSpaces([c])) by {
      assert s[0] == p[0];
      DropSpacesAllSpace(p, [c]);
    }
    assert CollapseSpaces(p) == "-" by {
      DropSpacesAllSpace(p, []);
      assert p + [] == p;
    }
    assert EndsInSpace(p);
    if !IsSpace(c) {
      assert CollapseSpaces([c]) == [c] by {
        assert [c][1..] == [];
      }
    } else {
      assert DropSpaces([c]) == [];
    }
  }

  lemma {:induction false} SnocAfterRun(p: string, c: char)
    requires |p| > 0 && IsSpace(p[0]) && !AllSpace(p)
    ensures CollapseSpaces(p + [c]) == CollapseSnoc(p, c)
    decreases |p|, 0
  {
    var s := p + [c];
    var d := DropSpaces(p);
    assert CollapseSpaces(s) == "-" + CollapseSpaces(d + [c]) by {
      assert s[0] == p[0];
      DropSpacesStops(p, [c]);
    }
    assert EndsInSpace(d) == EndsInSpace(p) by {
      assert |d| > 0 && d[|d| - 1] == p[|p| - 1];
    }
    CollapseSpacesSnoc(d, c);
    ExtendAfterPrefix("-", CollapseSpaces(d), c, EndsInSpace(d));
  }

  /** The same replacement as the left-to-right scan a regular-expression engine performs:
      emit `-` at the first character of each white-space run, copy every other character. */
  method ReplaceSpaceRuns(s: string) returns (r: string)
    ensures r == CollapseSpaces(s)
  {
    r := "";
    var i := 0;
    while i < |s|
      invariant 0 <= i <= |s|
      invariant r == CollapseSpaces(s[..i])
    {
      CollapseSpacesSnoc(s[..i], s[i]);
      assert s[..i + 1] == s[..i] + [s[i]];
      if !IsSpace(s[i]) {
        r := r + [s[i]];
      } else if !(i > 0 && IsSpace(s[i - 1])) {
        r := r + "-";
      }
      i := i + 1;
    }
    assert s[..i] == s;
  }

  const ExportSuffix := "-celus-export.json"

  /** The export's download name: the project name lower-cased, each white-space run made a `-`,
      and the fixed suffix appended. */
  function ExportFileName(name: string): (r: string)
    ensures |r| >= |ExportSuffix| && r[|r| - |ExportSuffix|..] == ExportSuffix
    ensures NoSpace(r[..|r| - |ExportSuffix|])
    ensures r[..|r| - |ExportSuffix|] == CollapseSpaces(ToLower(name))
    ensures forall i :: 0 <= i < |r| - |ExportSuffix| ==> !IsUpperAscii(r[i])
  {
    var slug := CollapseSpaces(ToLower(name));
    LowerSlug(ToLower(name));
    slug + ExportSuffix
  }

  /** Collapsing white space never introduces an upper-case letter. */
  lemma {:induction false} LowerSlug(s: string)
    requires forall i :: 0 <= i < |s| ==> !IsUpperAscii(s[i])
    ensures forall i :: 0 <= i < |CollapseSpaces(s)| ==> !IsUpperAscii(CollapseSpaces(s)[i])
    decreases |s|
  {
    if |s| > 0 {
      if IsSpace(s[0]) {
        LowerSlug(DropSpaces(s));
      } else {
        LowerSlug(s[1..]);
      }
    }
  }

  /** The bundled project, named `CONTROLADOR LED WS2811`, exports as `controlador-led-ws2811-celus-export.json`. */
  lemma DefaultExportFileName()
    ensures ExportFileName(ProjectName) == "controlador-led-ws2811-celus-export.json"
  {
    DefaultSlug();
    assert "controlador-led-ws2811" + ExportSuffix == "controlador-led-ws2811-celus-export.json";
  }

  lemma DefaultSlug()
    ensures CollapseSpaces(ToLower(ProjectName)) == "controlador-led-ws2811"
  {
    DefaultLowered();
    ThreeWordsCollapse("controlador", "led", "ws2811");
    assert "controlador" + "-" + "led" + "-" + "ws2811" == "controlador-led-ws2811";
  }

  lemma DefaultLowered()
    ensures ToLower(ProjectName) == "controlador" + " " + "led" + " " + "ws2811"
  {
  }

  /** Three words separated by single spaces collapse to the words joined by `-`. */
  lemma {:induction false} ThreeWordsCollapse(w1: string, w2: string, w3: string)
    requires |w1| > 0 && |w2| > 0
    requires NoSpace(w1) && NoSpace(w2) && NoSpace(w3)
    ensures CollapseSpaces(w1 + " " + w2 + " " + w3) == w1 + "-" + w2 + "-" + w3
  {
    var left := w1 + (" " + w2);
    assert CollapseSpaces(left) == w1 + ("-" + w2) by {
      CollapseSpacesFixesNoSpace(w1);
      SpaceThenWord(w1, w2);
    }
    assert left[|left| - 1] == w2[|w2| - 1];
    SpaceThenWord(left, w3);
    assert w1 + " " + w2 + " " + w3 == left + (" " + w3);
    assert w1 + "-" + w2 + "-" + w3 == (w1 + ("-" + w2)) + ("-" + w3);
  }

  /** A space followed by a word, put after text that does not end in white space, adds `-` and the word. */
  lemma {:induction false} SpaceThenWord(p: string, v: string)
    requires |p| > 0 && !IsSpace(p[|p| - 1]) && NoSpace(v)
    ensures CollapseSpaces(p + (" " + v)) == CollapseSpaces(p) + ("-" + v)
  {
    WordsCollapse(v, v);
    CollapseSpacesAppend(p, " " + v);
  }

  /** A single space between two words becomes `-`. */
  lemma WordsCollapse(a: string, b: string)
    requires NoSpace(a) && NoSpace(b)
    ensures CollapseSpaces(" " + b) == "-" + b
    ensures CollapseSpaces(a) == a
  {
    var s := " " + b;
    assert DropSpaces(s) == b by {
      if |b| > 0 {
        assert s[1] == b[0];
      }
      LeadingSpacesUnique(s, 1);
      assert s[1..] == b;
    }
    CollapseSpacesFixesNoSpace(b);
    CollapseSpacesFixesNoSpace(a);
  }

  /** Collapsing is compositional when the split point does not fall inside a white-space run. */
  lemma {:induction false} CollapseSpacesAppend(p: string, q: string)
    requires |p| > 0 && !IsSpace(p[|p| - 1])
    ensures CollapseSpaces(p + q) == CollapseSpaces(p) + CollapseSpaces(q)
    decreases |q|
  {
    if |q| == 0 {
      assert p + q == p;
      assert CollapseSpaces(q) == [];
    } else {
      var q' := q[..|q| - 1];
      var c := q[|q| - 1];
      assert p + q == (p + q') + [c] by {
        assert q == q' + [c];
      }
      CollapseSpacesAppend(p, q');
      CollapseSpacesSnoc(p + q', c);
      CollapseSpacesSnoc(q', c);
      assert CollapseSpaces(q) == CollapseSnoc(q', c) by {
        assert q == q' + [c];
      }
      assert EndsInSpace(p + q') == EndsInSpace(q') by {
        if |q'| == 0 {
          assert p + q' == p;
        } else {
          assert (p + q')[|p + q'| - 1] == q'[|q'| - 1];
        }
      }
      ExtendAfterPrefix(CollapseSpaces(p), CollapseSpaces(q'), c, EndsInSpace(q'));
    }
  }

  /** Extending commutes with any text put in front. */
  lemma ExtendAfterPrefix(a: string, r: string, c: char, afterSpace: bool)
    ensures a + ExtendCollapsed(r, c, afterSpace) == ExtendCollapsed(a + r, c, afterSpace)
  {
  }

  /** The text after the last `/` (all of `s` when it has none): `s.split('/').pop()`. */
  function LastSegment(s: string): (r: string)
    ensures |r| <= |s| && r == s[|s| - |r|..]
    ensures '/' !in r
    ensures |r| < |s| ==> s[|s| - |r| - 1] == '/'
  {
    if |s| == 0 || s[|s| - 1] == '/' then ""
    else
      var front := LastSegment(s[..|s| - 1]);
      front + [s[|s| - 1]]
  }

  /** `s.split('/')`: the pieces between slashes, the empty ones included. */
  function Split(s: string): (r: seq<string>)
    ensures |r| >= 1
    ensures forall k :: 0 <= k < |r| ==> '/' !in r[k]
  {
    if |s| == 0 then [""]
    else
      var pieces := Split(s[..|s| - 1]);
      if s[|s| - 1] == '/' then pieces + [""]
      else pieces[..|pieces| - 1] + [pieces[|pieces| - 1] + [s[|s| - 1]]]
  }

  /** The pieces joined back with `/`. */
  function Join(pieces: seq<string>): string
    requires |pieces| >= 1
  {
    if |pieces| == 1 then pieces[0] else Join(pieces[..|pieces| - 1]) + "/" + pieces[|pieces| - 1]
  }

  /** Splitting on `/` and joining with `/` gives back the path, and the last piece is `LastSegment`. */
  lemma {:induction false} SplitJoin(s: string)
    ensures Join(Split(s)) == s
    ensures Split(s)[|Split(s)| - 1] == LastSegment(s)
    decreases |s|
  {
    if |s| > 0 {
      var front := s[..|s| - 1];
      var c := s[|s| - 1];
      var pieces := Split(front);
      SplitJoin(front);
      assert s == front + [c];
      if c != '/' {
        var n := |pieces| - 1;
        var last := pieces[n] + [c];
        if n > 0 {
          assert (pieces[..n] + [last])[..n] == pieces[..n];
          assert pieces[..n] == pieces[..|pieces| - 1];
        }
      }
    }
  }

  /** The download name of the Gerber file at position `index`: its base name, or `gerber-<index>` when that is empty. */
  function DownloadName(file: string, index: int): (r: string)
    ensures '/' !in r
    ensures |r| > 0
    ensures LastSegment(file) != "" ==> r == LastSegment(file)
    ensures LastSegment(file) == "" <==> (|file| == 0 || file[|file| - 1] == '/')
    ensures LastSegment(file) == "" ==> r == "gerber-" + IntToString(index)
  {
    var base := LastSegment(file);
    if base != "" then base
    else
      var fallback := "gerber-" + IntToString(index);
      assert forall k :: 7 <= k < |fallback| ==> fallback[k] == IntToString(index)[k - 7];
      assert forall k :: 7 <= k < |fallback| ==> fallback[k] != '/';
      fallback
  }

  /** A path ending in `/` falls back to `gerber-<index>`. */
  lemma TrailingSlashFallback(dir: string, index: int)
    ensures DownloadName(dir + "/", index) == "gerber-" + IntToString(index)
  {
  }

  /** The base name of `dir/name` is `name` whenever `name` is non-empty and has no `/`. */
  lemma {:induction false} LastSegmentAfterSlash(dir: string, name: string)
    requires '/' !in name
    ensures LastSegment(dir + "/" + name) == name
    decreases |name|
  {
    var s := dir + "/" + name;
    if |name| == 0 {
      assert s[|s| - 1] == '/';
    } else {
      var front := name[..|name| - 1];
      assert s[..|s| - 1] == dir + "/" + front;
      assert '/' !in front by {
        assert forall x :: x in front ==> x in name;
      }
      LastSegmentAfterSlash(dir, front);
      assert front + [name[|name| - 1]] == name;
    }
  }

  datatype ProjectData = ProjectData(
    name: string,
    description: string,
    schematic: Option<string>,
    pcb: Option<string>,
    bom: Option<string>,
    gerbers: Option<seq<string>>)

  /** The download names of `project.gerbers?.forEach(...)`, in order; none when the list is absent. */
  function GerberNames(project: ProjectData): (r: seq<string>)
    ensures project.gerbers.None? ==> r == []
    ensures project.gerbers.Some? ==> |r| == |project.gerbers.value|
    ensures project.gerbers.Some? ==>
      forall i :: 0 <= i < |r| ==> r[i] == DownloadName(project.gerbers.value[i], i)
  {
    match project.gerbers
    case None => []
    case Some(files) => seq(|files|, i requires 0 <= i < |files| => DownloadName(files[i], i))
  }

  /** Files given as `/name`, with no other slash, download as `name`. */
  lemma RootFileNames(project: ProjectData)
    requires project.gerbers.Some?
    requires forall i :: 0 <= i < |project.gerbers.value| ==>
      |project.gerbers.value[i]| > 1 && project.gerbers.value[i][0] == '/' && '/' !in project.gerbers.value[i][1..]
    ensures forall i :: 0 <= i < |project.gerbers.value| ==>
      GerberNames(project)[i] == project.gerbers.value[i][1..]
  {
    var files := project.gerbers.value;
    forall i | 0 <= i < |files|
      ensures DownloadName(files[i], i) == files[i][1..]
    {
      assert files[i] == "" + "/" + files[i][1..];
      LastSegmentAfterSlash("", files[i][1..]);
    }
  }

  /** The bundled project's six Gerber files download under their own base names, `led-controller.GTL` and so on. */
  lemma DefaultGerberNames()
    ensures |GerberNames(DefaultProject)| == 6
    ensures forall i :: 0 <= i < 6 ==> GerberNames(DefaultProject)[i] == GerberFiles[i][1..]
    ensures GerberNames(DefaultProject)[0] == "led-controller.GTL"
  {
    forall i | 0 <= i < 6
      ensures |GerberFiles[i]| > 1 && GerberFiles[i][0] == '/' && '/' !in GerberFiles[i][1..]
    {
      assert GerberFiles[i][1..] == "led-controller." + GerberFiles[i][16..];
    }
    RootFileNames(DefaultProject);
  }

  const ProjectName := "CONTROLADOR LED WS2811"

  const GerberFiles := ["/led-controller.GTL", "/led-controller.GBL", "/led-controller.GTO",
                        "/led-controller.GBS", "/led-controller.GTS", "/led-controller.GML"]

  const DefaultProject := ProjectData(
    ProjectName,
    "Controlador LED para ART-NET com até 4 saídas WS2811",
    Some("/src/assets/led-controller-schematic.jpg"),
    Some("/src/assets/main-pcb-premium-top.jpg"),
    Some("/led-controller-BOM.csv"),
    Some(GerberFiles))

  const ExportFormat := "celus-import-v1"

  /** The exported JSON document; the timestamp is the ISO clock reading, supplied by the caller. */
  datatype ExportRecord = ExportRecord(project: ProjectData, timestamp: string, format: string)

  datatype Toast = Toast(title: string, description: string, destructive: bool)

  /** What one run of the export handler leaves behind. */
  datatype ExportRun = ExportRun(
    record: ExportRecord,
    fileName: string,
    downloaded: bool,
    toast: Toast,
    isExporting: bool)

  /** The export handler: `isExporting` is raised, the record and file name are built, the download
      either happens or throws (`downloadSucceeds`, decided by the browser), a success or error toast
      is shown, and `isExporting` is lowered on both paths. */
  function HandleExport(project: ProjectData, timestamp: string, downloadSucceeds: bool): (r: ExportRun)
    ensures !r.isExporting
    ensures r.record.format == "celus-import-v1"
    ensures r.record.project == project && r.record.timestamp == timestamp
    ensures r.fileName == ExportFileName(project.name)
    ensures r.downloaded == downloadSucceeds
    ensures r.toast.destructive <==> !downloadSucceeds
  {
    var record := ExportRecord(project, timestamp, ExportFormat);
    var fileName := ExportFileName(project.name);
    var toast :=
      if downloadSucceeds then Toast("Projeto exportado", "Arquivo JSON criado para importação no Celus", false)
      else Toast("Erro na exportação", "Não foi possível exportar o projeto", true);
    ExportRun(record, fileName, downloadSucceeds, toast, false)
  }

  /** The export button is enabled exactly while no export is in progress, so after any run it is enabled again. */
  predicate ExportButtonEnabled(isExporting: bool) {
    !isExporting
  }

  lemma ExportReenablesButton(project: ProjectData, timestamp: string, downloadSucceeds: bool)
    ensures ExportButtonEnabled(HandleExport(project, timestamp, downloadSucceeds).isExporting)
  {
  }
}

=== FILE: control_display.dfy ===
/** The simulated LCD control panel: a current menu, a highlighted row, four
    buttons (`up`, `down`, `enter`, `back`) and one option list per menu. */
module ControlDisplay {
  import opened Text

  datatype Menu = Main | ArtNet | Test | Effects | Settings

  datatype Button = Up | Down | Enter | Back

  /** What selecting a row does: open another menu, or only write a console message. */
  datatype Action = Navigate(target: Menu) | Log(message: string)

  /** A row of an option list: either it carries an action, or it only displays a value. */
  datatype MenuOption =
    | Actionable(title: string, action: Action)
    | Display(title: string, value: string)

  datatype ArtNetStatus = Connected | Disconnected

  /** The component's inputs, as passed by its parent. */
  datatype Props = Props(artnetStatus: ArtNetStatus, universe: int, subnet: int)

  /** The navigation state: which menu is shown and which of its rows is highlighted. */
  datatype State = State(menu: Menu, selected: int)

  /** The observable side of one button press besides the new state. */
  datatype Effect =
    | NoEffect
    | Logged(message: string)
    | TypeError  // reading `.action` of a row past the end of the list throws

  datatype Reaction = Reaction(next: State, effect: Effect)

  const Initial := State(Main, 0)

  function MainOptions(): (r: seq<MenuOption>)
    ensures |r| == 4
    ensures forall k :: 0 <= k < |r| ==> r[k].Actionable? && r[k].action.Navigate?
  {
    [ Actionable("ART-NET", Navigate(ArtNet)),
      Actionable("TESTE", Navigate(Test)),
      Actionable("EFEITOS", Navigate(Effects)),
      Actionable("CONFIG", Navigate(Settings)) ]
  }

  /** A row value as displayed: the integer rendered and zero-padded to three characters. */
  function ThreeDigits(n: int): (r: string)
    ensures |r| >= 3
    ensures n >= 0 ==> AllDigits(r) && DecimalValue(r) == n
    ensures 0 <= n < 1000 ==> |r| == 3
    ensures n >= 0 && |r| > 3 ==> r == IntToString(n) && r[0] != '0'
  {
    if n >= 0 then
      PaddedNumberValue(n, 3);
      NatToStringFits(n, 3);
      PadStart(IntToString(n), 3, '0')
    else PadStart(IntToString(n), 3, '0')
  }

  function ArtNetOptions(p: Props): (r: seq<MenuOption>)
    ensures |r| == 4
    ensures forall k :: 0 <= k < |r| ==> r[k].Display?
  {
    [ Display("UNIVERSO", ThreeDigits(p.universe)),
      Display("SUBNET", ThreeDigits(p.subnet)),
      Display("NET", "000"),
      Display("STATUS", if p.artnetStatus == Connected then "CONECTADO" else "DESCONECTADO") ]
  }

  function TestOptions(): (r: seq<MenuOption>)
    ensures |r| == 4
    ensures forall k :: 0 <= k < |r| ==> r[k].Actionable? && r[k].action.Log?
  {
    [ Actionable("TESTE TOTAL", Log("Teste total")),
      Actionable("TESTE CANAL", Log("Teste canal")),
      Actionable("TESTE RGB", Log("Teste RGB")),
      Actionable("RESET SAIDAS", Log("Reset saídas")) ]
  }

  function EffectOptions(): (r: seq<MenuOption>)
    ensures |r| == 4
    ensures forall k :: 0 <= k < |r| ==> r[k].Actionable? && r[k].action.Log?
  {
    [ Actionable("RAINBOW", Log("Rainbow effect")),
      Actionable("FADE", Log("Fade effect")),
      Actionable("STROBE", Log("Strobe effect")),
      Actionable("CHASE", Log("Chase effect")) ]
  }

  /** `getCurrentOptions`: the list the buttons act on. `Settings` has none of its own and falls back to
      the main list. */
  function Options(menu: Menu, p: Props): (r: seq<MenuOption>)
    ensures |r| == 4
    ensures menu in {Main, Settings} ==> r == MainOptions()
  {
    match menu
    case ArtNet => ArtNetOptions(p)
    case Test => TestOptions()
    case Effects => EffectOptions()
    case _ => MainOptions()
  }

  /** The rows the LCD renders: the screen has a branch for main, artnet, and test or effects, and none
      for settings, which is therefore blank. */
  function ShownRows(menu: Menu, p: Props): (r: seq<MenuOption>)
    ensures |r| == 0 <==> menu == Settings
    ensures menu != Settings ==> r == Options(menu, p)
  {
    match menu
    case Main => MainOptions()
    case ArtNet => ArtNetOptions(p)
    case Test => TestOptions()
    case Effects => EffectOptions()
    case Settings => []
  }

  /** On settings the screen is blank while the buttons still act on the four rows of the main list;
      everywhere else the rendered rows are the rows the buttons act on. */
  lemma SettingsActsOnHiddenMainList(p: Props)
    ensures ShownRows(Settings, p) == [] && Options(Settings, p) == MainOptions()
    ensures forall m :: m != Settings ==> ShownRows(m, p) == Options(m, p) && |ShownRows(m, p)| == 4
  {
  }

  /** The highlighted row is a row of the list the buttons act on. */
  predicate Valid(s: State) {
    0 <= s.selected < 4
  }

  /** What selecting a row does to the state: a navigation keeps the index, a log keeps everything. */
  function Select(s: State, row: MenuOption): Reaction {
    match row
    case Actionable(_, Navigate(target)) => Reaction(State(target, s.selected), NoEffect)
    case Actionable(_, Log(message)) => Reaction(s, Logged(message))
    case Display(_, _) => Reaction(s, NoEffect)
  }

  /** One button press. */
  function Press(s: State, b: Button, p: Props): (r: Reaction)
    ensures b == Up ==> r == Reaction(State(s.menu, if s.selected - 1 < 0 then 0 else s.selected - 1), NoEffect)
    ensures b == Down ==> r == Reaction(State(s.menu, if s.selected + 1 > 3 then 3 else s.selected + 1), NoEffect)
    ensures b == Back ==> r == Reaction(if s.menu != Main then Initial else s, NoEffect)
    ensures b == Enter ==> r.next.selected == s.selected
    ensures r.effect == TypeError <==> b == Enter && !Valid(s)
  {
    var options := Options(s.menu, p);
    match b
    case Up => Reaction(State(s.menu, if 0 > s.selected - 1 then 0 else s.selected - 1), NoEffect)
    case Down =>
      Reaction(State(s.menu, if |options| - 1 < s.selected + 1 then |options| - 1 else s.selected + 1), NoEffect)
    case Enter =>
      if 0 <= s.selected < |options| then Select(s, options[s.selected])
      else Reaction(s, TypeError)
    case Back => if s.menu != Main then Reaction(State(Main, 0), NoEffect) else Reaction(s, NoEffect)
  }

  /** `enter` on the main list (and on settings, whose buttons act on it although the screen is blank) at row k opens artnet, test, effects or settings. */
  lemma EnterOnMainNavigates(s: State, p: Props)
    requires s.menu in {Main, Settings} && Valid(s)
    ensures Press(s, Enter, p) == Reaction(State([ArtNet, Test, Effects, Settings][s.selected], s.selected), NoEffect)
  {
  }

  /** `enter` inside artnet, test or effects never changes the menu or the index. */
  lemma EnterInSubmenuStays(s: State, p: Props)
    requires s.menu in {ArtNet, Test, Effects}
    ensures Press(s, Enter, p).next == s
    ensures s.menu == ArtNet && Valid(s) ==> Press(s, Enter, p).effect == NoEffect
  {
  }

  /** The state after pressing the buttons of `bs` in order. */
  function Run(s: State, bs: seq<Button>, p: Props): State
    decreases |bs|
  {
    if |bs| == 0 then s else Run(Press(s, bs[0], p).next, bs[1..], p)
  }

  /** Every button keeps the highlighted row on the list the buttons act on. */
  lemma PressPreservesValid(s: State, b: Button, p: Props)
    requires Valid(s)
    ensures Valid(Press(s, b, p).next)
    ensures Press(s, b, p).effect != TypeError
  {
  }

  /** From any valid state, any sequence of presses keeps the index in [0, 3]. */
  lemma {:induction false} RunPreservesValid(s: State, bs: seq<Button>, p: Props)
    requires Valid(s)
    ensures Valid(Run(s, bs, p))
    decreases |bs|
  {
    if |bs| > 0 {
      PressPreservesValid(s, bs[0], p);
      RunPreservesValid(Press(s, bs[0], p).next, bs[1..], p);
    }
  }

  /** Starting from the initial screen, the index never leaves [0, 3] and `enter` never throws. */
  lemma {:induction false} ReachableIsValid(bs: seq<Button>, b: Button, p: Props)
    ensures 0 <= Run(Initial, bs, p).selected <= 3
    ensures Press(Run(Initial, bs, p), b, p).effect != TypeError
  {
    RunPreservesValid(Initial, bs, p);
    PressPreservesValid(Run(Initial, bs, p), b, p);
  }

  /** `enter` on the settings screen does exactly what it does on the main screen. */
  lemma SettingsEnterIsMainEnter(i: int, p: Props)
    requires 0 <= i < 4
    ensures Press(State(Settings, i), Enter, p) == Press(State(Main, i), Enter, p)
  {
  }

  /** `up` undoes `down` away from the bottom row, and `down` undoes `up` away from the top row. */
  lemma UpDownInverse(s: State, p: Props)
    requires Valid(s)
    ensures s.selected < 3 ==> Press(Press(s, Down, p).next, Up, p).next == s
    ensures s.selected > 0 ==> Press(Press(s, Up, p).next, Down, p).next == s
  {
  }

  /** `back` is idempotent, and after it the screen is the initial one or `back` did nothing. */
  lemma BackIdempotent(s: State, p: Props)
    ensures Press(Press(s, Back, p).next, Back, p) == Press(s, Back, p)
    ensures Press(s, Back, p).next == Initial || Press(s, Back, p).next == s
  {
  }

  /** In the test and effects menus `enter` on a row only writes that row's message. */
  lemma EnterLogs(s: State, p: Props)
    requires Valid(s) && s.menu in {Test, Effects}
    ensures Press(s, Enter, p).effect.Logged?
    ensures Press(s, Enter, p).effect.message == Options(s.menu, p)[s.selected].action.message
  {
  }

  /** Without `back`, no sequence of presses leaves the artnet, test or effects screen. */
  lemma {:induction false} SubmenuExitOnlyByBack(s: State, bs: seq<Button>, p: Props)
    requires s.menu in {ArtNet, Test, Effects}
    requires forall k :: 0 <= k < |bs| ==> bs[k] != Back
    ensures Run(s, bs, p).menu == s.menu
    decreases |bs|
  {
    if |bs| > 0 {
      SubmenuExitOnlyByBack(Press(s, bs[0], p).next, bs[1..], p);
    }
  }

}

=== FILE: kicad_viewer.dfy ===
/** The interactive board viewer's state: a stack of layers that can be hidden
    or faded, a list of components of which at most one is highlighted, the
    selected component, and the zoom and rotation of the view. */
module KiCadViewer {
  import opened Wrappers
  import opened Sequences

  /** `opacity` is `None` when the slider reported no value (JavaScript `undefined`). */
  datatype Layer = Layer(name: string, color: string, visible: bool, opacity: Option<int>)

  datatype Kind = IC | Capacitor | Resistor | Connector | Led

  datatype Component = Component(
    id: string, name: string, kind: Kind,
    value: Option<string>, footprint: Option<string>,
    highlighted: bool)

  datatype Viewer = Viewer(
    selected: Option<string>,
    layers: seq<Layer>,
    zoom: int,
    rotation: int,
    components: seq<Component>)

  const MinZoom := 10
  const MaxZoom := 500
  const ZoomStep := 25
  const DefaultZoom := 100

  function InitialLayers(): (r: seq<Layer>)
    ensures |r| == 5
    ensures forall i :: 0 <= i < |r| ==> r[i].visible
  {
    [ Layer("Copper Top", "#ff4444", true, Some(100)),
      Layer("Copper Bottom", "#4444ff", true, Some(100)),
      Layer("Silkscreen", "#ffffff", true, Some(80)),
      Layer("Solder Mask", "#008800", true, Some(70)),
      Layer("Vias", "#888888", true, Some(100)) ]
  }

  /** The built-in component list (the `components` prop is accepted but never read). */
  function InitialComponents(): (r: seq<Component>)
    ensures |r| == 7
    ensures forall i :: 0 <= i < |r| ==> !r[i].highlighted
  {
    [ Component("U1", "ESP32", IC, Some("ESP32-DevKitC"), Some("Module:ESP32-DevKitC"), false),
      Component("U2", "74HCT245", IC, Some("74HCT245"), Some("Package_SO:SOIC-20"), false),
      Component("U3", "ULN2803", IC, Some("ULN2803A"), Some("Package_DIP:DIP-18"), false),
      Component("J1", "LED_OUT_1", Connector, Some("KF301-4P"), Some("TerminalBlock_KF301"), false),
      Component("C1", "100nF", Capacitor, Some("100nF"), Some("0805"), false),
      Component("R1", "10k", Resistor, Some("10k"), Some("0805"), false),
      Component("D1", "LED_STATUS", Led, Some("Red LED"), Some("0805"), false) ]
  }

  function Initial(): Viewer {
    Viewer(None, InitialLayers(), DefaultZoom, 0, InitialComponents())
  }

  predicate DistinctIds(cs: seq<Component>) {
    forall i, j :: 0 <= i < j < |cs| ==> cs[i].id != cs[j].id
  }

  /** The built-in components have pairwise distinct ids. */
  lemma InitialIdsDistinct()
    ensures DistinctIds(InitialComponents())
  {
    var cs := InitialComponents();
    forall i, j | 0 <= i < j < |cs|
      ensures cs[i].id != cs[j].id
    {
      assert cs[i].id[0] != cs[j].id[0] || cs[i].id[1] != cs[j].id[1];
    }
  }

  function FlipVisible(l: Layer): Layer {
    l.(visible := !l.visible)
  }

  function WithOpacity(opacity: Option<int>): Layer -> Layer {
    (l: Layer) => l.(opacity := opacity)
  }

  /** `handleLayerToggle`: only layer `index` changes, and only its visibility, which flips. */
  function ToggleLayer(v: Viewer, index: int): (r: Viewer)
    ensures r.(layers := v.layers) == v
    ensures |r.layers| == |v.layers|
    ensures forall j :: 0 <= j < |v.layers| && j != index ==> r.layers[j] == v.layers[j]
    ensures 0 <= index < |v.layers| ==>
      r.layers[index].visible != v.layers[index].visible
      && r.layers[index].(visible := v.layers[index].visible) == v.layers[index]
  {
    v.(layers := MapAt(v.layers, index, FlipVisible))
  }

  /** Toggling a layer twice restores the viewer. */
  lemma ToggleLayerTwice(v: Viewer, index: int)
    ensures ToggleLayer(ToggleLayer(v, index), index) == v
  {
  }

  /** `handleLayerOpacity`: only layer `index` changes, and only its opacity, which becomes the slider's first value. */
  function SetLayerOpacity(v: Viewer, index: int, values: seq<int>): (r: Viewer)
    ensures r.(layers := v.layers) == v
    ensures |r.layers| == |v.layers|
    ensures forall j :: 0 <= j < |v.layers| && j != index ==> r.layers[j] == v.layers[j]
    ensures 0 <= index < |v.layers| ==>
      r.layers[index].opacity == First(values)
      && r.layers[index].(opacity := v.layers[index].opacity) == v.layers[index]
  {
    v.(layers := MapAt(v.layers, index, WithOpacity(First(values))))
  }

  /** A second slider value for the same layer overrides the first. */
  lemma OpacityLastWins(v: Viewer, index: int, first: seq<int>, second: seq<int>)
    ensures SetLayerOpacity(SetLayerOpacity(v, index, first), index, second) == SetLayerOpacity(v, index, second)
  {
  }

  /** Changing an opacity never changes which layers are visible, so the visible count is kept. */
  lemma OpacityKeepsVisibleCount(v: Viewer, index: int, values: seq<int>)
    ensures VisibleLayerCount(SetLayerOpacity(v, index, values)) == VisibleLayerCount(v)
  {
    if 0 <= index < |v.layers| {
      FilterUpdate(v.layers, index, WithOpacity(First(values))(v.layers[index]), IsVisible);
    }
  }

  function IsVisible(l: Layer): bool {
    l.visible
  }

  /** The "active layers" figure: the length of the layers filtered on `visible`. */
  function VisibleLayerCount(v: Viewer): (r: nat)
    ensures r <= |v.layers|
    ensures r == |set i | 0 <= i < |v.layers| && v.layers[i].visible|
  {
    FilterCountsPositions(v.layers, IsVisible);
    assert Positions(v.layers, IsVisible) == set i | 0 <= i < |v.layers| && v.layers[i].visible;
    |Filter(v.layers, IsVisible)|
  }

  /** Toggling a layer moves the visible count by exactly one. */
  lemma ToggleLayerCount(v: Viewer, index: int)
    requires 0 <= index < |v.layers|
    ensures v.layers[index].visible ==> VisibleLayerCount(ToggleLayer(v, index)) == VisibleLayerCount(v) - 1
    ensures !v.layers[index].visible ==> VisibleLayerCount(ToggleLayer(v, index)) == VisibleLayerCount(v) + 1
  {
    FilterUpdate(v.layers, index, FlipVisible(v.layers[index]), IsVisible);
  }

  function Highlight(id: string): Component -> Component {
    (c: Component) => c.(highlighted := if c.id == id then !c.highlighted else false)
  }

  /** `handleComponentClick`: the clicked component's highlight flips, every other one is cleared,
      and the clicked id becomes the selection. */
  function ComponentClick(v: Viewer, id: string): (r: Viewer)
    ensures r.selected == Some(id)
    ensures r.layers == v.layers && r.zoom == v.zoom && r.rotation == v.rotation
    ensures |r.components| == |v.components|
    ensures forall j :: 0 <= j < |v.components| ==>
      r.components[j].(highlighted := v.components[j].highlighted) == v.components[j]
    ensures forall j :: 0 <= j < |v.components| && v.components[j].id != id ==> !r.components[j].highlighted
    ensures forall j :: 0 <= j < |v.components| && v.components[j].id == id ==>
      r.components[j].highlighted == !v.components[j].highlighted
  {
    v.(selected := Some(id), components := MapAll(v.components, Highlight(id)))
  }

  function IsHighlighted(c: Component): bool {
    c.highlighted
  }

  function HighlightedCount(cs: seq<Component>): nat {
    |Filter(cs, IsHighlighted)|
  }

  /** With distinct ids, a click leaves at most one component highlighted. */
  lemma ClickHighlightsAtMostOne(v: Viewer, id: string)
    requires DistinctIds(v.components)
    ensures HighlightedCount(ComponentClick(v, id).components) <= 1
  {
    var cs := ComponentClick(v, id).components;
    FilterCountsPositions(cs, IsHighlighted);
    var hs := Positions(cs, IsHighlighted);
    if k :| 0 <= k < |cs| && v.components[k].id == id {
      assert hs <= {k};
      assert hs == {} || hs == {k};
    } else {
      assert hs == {};
    }
  }

  /** `resetView`: zoom 100, rotation 0, nothing selected, nothing highlighted; layers and the components
      themselves are kept. */
  function ResetView(v: Viewer): (r: Viewer)
    ensures r.zoom == DefaultZoom && r.rotation == 0 && r.selected == None
    ensures r.layers == v.layers
    ensures |r.components| == |v.components|
    ensures forall j :: 0 <= j < |r.components| ==>
      !r.components[j].highlighted && r.components[j].(highlighted := v.components[j].highlighted) == v.components[j]
  {
    Viewer(None, v.layers, DefaultZoom, 0, MapAll(v.components, (c: Component) => c.(highlighted := false)))
  }

  /** After a reset no component is highlighted and a second reset changes nothing. */
  lemma ResetViewClears(v: Viewer)
    ensures HighlightedCount(ResetView(v).components) == 0
    ensures ResetView(ResetView(v)) == ResetView(v)
  {
    FilterEmpty(ResetView(v).components, IsHighlighted);
  }

  /** The zoom-out button: 25 less, never below 10. */
  function ZoomOut(v: Viewer): (r: Viewer)
    ensures r.(zoom := v.zoom) == v
    ensures r.zoom >= MinZoom
    ensures v.zoom - ZoomStep >= MinZoom ==> r.zoom == v.zoom - ZoomStep
    ensures v.zoom - ZoomStep < MinZoom ==> r.zoom == MinZoom
  {
    v.(zoom := if MinZoom > v.zoom - ZoomStep then MinZoom else v.zoom - ZoomStep)
  }

  /** The zoom-in button: 25 more, never above 500. */
  function ZoomIn(v: Viewer): (r: Viewer)
    ensures r.(zoom := v.zoom) == v
    ensures r.zoom <= MaxZoom
    ensures v.zoom + ZoomStep <= MaxZoom ==> r.zoom == v.zoom + ZoomStep
    ensures v.zoom + ZoomStep > MaxZoom ==> r.zoom == MaxZoom
  {
    v.(zoom := if MaxZoom < v.zoom + ZoomStep then MaxZoom else v.zoom + ZoomStep)
  }

  datatype ZoomButton = Out | In

  function Zooms(v: Viewer, bs: seq<ZoomButton>): Viewer
    decreases |bs|
  {
    if |bs| == 0 then v
    else Zooms(if bs[0] == Out then ZoomOut(v) else ZoomIn(v), bs[1..])
  }

  /** From a zoom in [10, 500], any sequence of zoom buttons keeps it there and changes nothing else. */
  lemma {:induction false} ZoomsStayInRange(v: Viewer, bs: seq<ZoomButton>)
    requires MinZoom <= v.zoom <= MaxZoom
    ensures MinZoom <= Zooms(v, bs).zoom <= MaxZoom
    ensures Zooms(v, bs).(zoom := v.zoom) == v
    decreases |bs|
  {
    if |bs| > 0 {
      ZoomsStayInRange(if bs[0] == Out then ZoomOut(v) else ZoomIn(v), bs[1..]);
    }
  }

  /** The viewer's handlers that change its state, as the user can trigger them. */
  datatype Event =
    | LayerToggled(layer: int)
    | OpacityChanged(layer: int, values: seq<int>)
    | ComponentClicked(id: string)
    | ResetClicked
    | ZoomClicked(button: ZoomButton)

  function Apply(v: Viewer, e: Event): Viewer {
    match e
    case LayerToggled(i) => ToggleLayer(v, i)
    case OpacityChanged(i, values) => SetLayerOpacity(v, i, values)
    case ComponentClicked(id) => ComponentClick(v, id)
    case ResetClicked => ResetView(v)
    case ZoomClicked(b) => if b == Out then ZoomOut(v) else ZoomIn(v)
  }

  function Replay(v: Viewer, es: seq<Event>): Viewer
    decreases |es|
  {
    if |es| == 0 then v else Replay(Apply(v, es[0]), es[1..])
  }

  /** The viewer invariant: distinct component ids, at most one highlight, zoom within the button clamps. */
  predicate Sane(v: Viewer) {
    DistinctIds(v.components) && HighlightedCount(v.components) <= 1 && MinZoom <= v.zoom <= MaxZoom
  }

  /** Every handler keeps the invariant. */
  lemma ApplyKeepsSane(v: Viewer, e: Event)
    requires Sane(v)
    ensures Sane(Apply(v, e))
  {
    var r := Apply(v, e);
    assert forall j :: 0 <= j < |r.components| ==> r.components[j].id == v.components[j].id;
    match e
    case ComponentClicked(id) => ClickHighlightsAtMostOne(v, id);
    case ResetClicked => ResetViewClears(v);
    case _ =>
  }

  lemma {:induction false} ReplayKeepsSane(v: Viewer, es: seq<Event>)
    requires Sane(v)
    ensures Sane(Replay(v, es))
    decreases |es|
  {
    if |es| > 0 {
      ApplyKeepsSane(v, es[0]);
      ReplayKeepsSane(Apply(v, es[0]), es[1..]);
    }
  }

  /** From the viewer on mount, after any sequence of handler events at most one component is
      highlighted and the zoom stays in [10, 500]. */
  lemma {:induction false} ReachableViewer(es: seq<Event>)
    ensures HighlightedCount(Replay(Initial(), es).components) <= 1
    ensures MinZoom <= Replay(Initial(), es).zoom <= MaxZoom
  {
    InitialIdsDistinct();
    FilterEmpty(InitialComponents(), IsHighlighted);
    ReplayKeepsSane(Initial(), es);
  }

  /** `components.find(c => c.id === id)`: the first component with that id, or `None`. */
  function FindById(cs: seq<Component>, id: string): (r: Option<Component>)
    ensures r.None? <==> forall k :: 0 <= k < |cs| ==> cs[k].id != id
    ensures r.Some? ==> exists k :: 0 <= k < |cs| && cs[k] == r.value && cs[k].id == id &&
                                    forall j :: 0 <= j < k ==> cs[j].id != id
  {
    if |cs| == 0 then None
    else if cs[0].id == id then Some(cs[0])
    else
      var rest := FindById(cs[1..], id);
      assert forall k :: 1 <= k < |cs| ==> cs[k] == cs[1..][k - 1];
      rest
  }

  /** `selectedComponentData`: the component whose id is the selection; none when nothing is selected. */
  function SelectedComponentData(v: Viewer): (r: Option<Component>)
    ensures v.selected.None? ==> r.None?
    ensures r.Some? ==> r.value in v.components && Some(r.value.id) == v.selected
    ensures r.None? <==> (v.selected.None? || forall k :: 0 <= k < |v.components| ==> v.components[k].id != v.selected.value)
    ensures r.Some? ==> exists k :: 0 <= k < |v.components| && v.components[k] == r.value &&
                                    forall j :: 0 <= j < k ==> v.components[j].id != r.value.id
  {
    match v.selected
    case None => None
    case Some(id) => FindById(v.components, id)
  }

  /** With distinct ids the lookup finds the one component at the position holding that id. */
  lemma FindByIdUnique(cs: seq<Component>, k: int)
    requires DistinctIds(cs) && 0 <= k < |cs|
    ensures FindById(cs, cs[k].id) == Some(cs[k])
  {
  }

  /** After clicking the component at position `k`, the details panel shows that component with its highlight flipped. */
  lemma ClickThenDetails(v: Viewer, k: int)
    requires DistinctIds(v.components) && 0 <= k < |v.components|
    ensures SelectedComponentData(ComponentClick(v, v.components[k].id)) ==
            Some(v.components[k].(highlighted := !v.components[k].highlighted))
  {
    var r := ComponentClick(v, v.components[k].id);
    assert DistinctIds(r.components);
    FindByIdUnique(r.components, k);
  }
}

=== FILE: led_controller.dfy ===
/** The controller page's state: a bank of 32 outputs, each with a universe
    count and an on/off flag, the derived totals shown in the header, and the
    network configuration whose mode decides the IP address displayed. */
module LedController {
  import opened Text
  import opened Sequences
  import LedOutput

  datatype OutputConfig = OutputConfig(universes: int, isActive: bool)

  datatype NetworkMode = Auto | Broadcast | Fixed

  datatype NetworkConfig = NetworkConfig(ip: string, subnet: string, gateway: string, mode: NetworkMode)

  const OutputCount := 32

  /** The bank on mount: 32 inactive outputs of one universe each. */
  function InitialOutputs(): (r: seq<OutputConfig>)
    ensures |r| == OutputCount
    ensures forall i :: 0 <= i < |r| ==> r[i].universes == 1 && !r[i].isActive
  {
    seq(OutputCount, _ => OutputConfig(1, false))
  }

  const InitialNetwork := NetworkConfig("192.168.1.100", "255.255.255.0", "192.168.1.1", Fixed)

  function WithUniverses(universes: int): OutputConfig -> OutputConfig {
    (o: OutputConfig) => o.(universes := universes)
  }

  function Flip(o: OutputConfig): OutputConfig {
    o.(isActive := !o.isActive)
  }

  /** `handleUniverseChange`: only the `universes` of entry `index` becomes `universes`. */
  function SetUniverses(outputs: seq<OutputConfig>, index: int, universes: int): (r: seq<OutputConfig>)
    ensures |r| == |outputs|
    ensures forall j :: 0 <= j < |r| && j != index ==> r[j] == outputs[j]
    ensures 0 <= index < |r| ==> r[index].universes == universes && r[index].isActive == outputs[index].isActive
  {
    MapAt(outputs, index, WithUniverses(universes))
  }

  /** `handleOutputToggle`: only the `isActive` flag of entry `index` flips. */
  function Toggle(outputs: seq<OutputConfig>, index: int): (r: seq<OutputConfig>)
    ensures |r| == |outputs|
    ensures forall j :: 0 <= j < |r| && j != index ==> r[j] == outputs[j]
    ensures 0 <= index < |r| ==> r[index].isActive != outputs[index].isActive
    ensures 0 <= index < |r| ==> r[index].universes == outputs[index].universes
  {
    MapAt(outputs, index, Flip)
  }

  /** Toggling the same output twice restores the bank. */
  lemma ToggleTwice(outputs: seq<OutputConfig>, index: int)
    ensures Toggle(Toggle(outputs, index), index) == outputs
  {
  }

  /** Setting a universe count twice keeps only the second value. */
  lemma SetUniversesLastWins(outputs: seq<OutputConfig>, index: int, u: int, v: int)
    ensures SetUniverses(SetUniverses(outputs, index, u), index, v) == SetUniverses(outputs, index, v)
  {
  }

  /** Reference sum: the universes of the active outputs, accumulated left to right as `reduce` does. */
  function ActiveUniverses(outputs: seq<OutputConfig>): int
  {
    if |outputs| == 0 then 0
    else
      var last := outputs[|outputs| - 1];
      ActiveUniverses(outputs[..|outputs| - 1]) + (if last.isActive then last.universes else 0)
  }

  /** `totalUniverses`: the `reduce` over the bank that adds the universes of every active output. */
  method TotalUniverses(outputs: seq<OutputConfig>) returns (sum: int)
    ensures sum == ActiveUniverses(outputs)
  {
    sum := 0;
    var i := 0;
    while i < |outputs|
      invariant 0 <= i <= |outputs|
      invariant sum == ActiveUniverses(outputs[..i])
    {
      assert outputs[..i + 1][..i] == outputs[..i];
      sum := if outputs[i].isActive then sum + outputs[i].universes else sum;
      i := i + 1;
    }
    assert outputs[..i] == outputs;
  }

  /** With no output active the total is 0. */
  lemma {:induction false} NoneActiveTotalsZero(outputs: seq<OutputConfig>)
    requires forall i :: 0 <= i < |outputs| ==> !outputs[i].isActive
    ensures ActiveUniverses(outputs) == 0
    decreases |outputs|
  {
    if |outputs| > 0 {
      NoneActiveTotalsZero(outputs[..|outputs| - 1]);
    }
  }

  /** Replacing one output changes the total by the difference of the two outputs' contributions. */
  lemma {:induction false} ActiveUniversesUpdate(outputs: seq<OutputConfig>, index: int, o: OutputConfig)
    requires 0 <= index < |outputs|
    ensures ActiveUniverses(outputs[index := o]) ==
            ActiveUniverses(outputs)
            - (if outputs[index].isActive then outputs[index].universes else 0)
            + (if o.isActive then o.universes else 0)
    decreases |outputs|
  {
    var n := |outputs| - 1;
    var t := outputs[index := o];
    if index < n {
      assert t[..n] == outputs[..n][index := o];
      ActiveUniversesUpdate(outputs[..n], index, o);
    } else {
      assert t[..n] == outputs[..n];
    }
  }

  function IsActive(o: OutputConfig): bool {
    o.isActive
  }

  /** `activeOutputs`: the length of the bank filtered on `isActive`. */
  function ActiveOutputs(outputs: seq<OutputConfig>): (r: nat)
    ensures r <= |outputs|
    ensures r == |set i | 0 <= i < |outputs| && outputs[i].isActive|
    ensures r == 0 <==> forall i :: 0 <= i < |outputs| ==> !outputs[i].isActive
  {
    FilterCountsPositions(outputs, IsActive);
    FilterEmpty(outputs, IsActive);
    assert Positions(outputs, IsActive) == set i | 0 <= i < |outputs| && outputs[i].isActive;
    |Filter(outputs, IsActive)|
  }

  /** The bank on mount reports no active output and a total of 0. */
  lemma InitialTotals()
    ensures ActiveOutputs(InitialOutputs()) == 0
    ensures ActiveUniverses(InitialOutputs()) == 0
  {
    NoneActiveTotalsZero(InitialOutputs());
  }

  /** Toggling output `index` moves the total by exactly its universes and the active count by exactly one. */
  lemma {:induction false} ToggleTotals(outputs: seq<OutputConfig>, index: int)
    requires 0 <= index < |outputs|
    ensures outputs[index].isActive ==>
      ActiveUniverses(Toggle(outputs, index)) == ActiveUniverses(outputs) - outputs[index].universes
      && ActiveOutputs(Toggle(outputs, index)) == ActiveOutputs(outputs) - 1
    ensures !outputs[index].isActive ==>
      ActiveUniverses(Toggle(outputs, index)) == ActiveUniverses(outputs) + outputs[index].universes
      && ActiveOutputs(Toggle(outputs, index)) == ActiveOutputs(outputs) + 1
  {
    var o := Flip(outputs[index]);
    assert Toggle(outputs, index) == outputs[index := o];
    ActiveUniversesUpdate(outputs, index, o);
    FilterUpdate(outputs, index, o, IsActive);
  }

  /** Changing the universes of an output never changes the active count, and moves the total only if it is active. */
  lemma {:induction false} SetUniversesTotals(outputs: seq<OutputConfig>, index: int, u: int)
    requires 0 <= index < |outputs|
    ensures ActiveOutputs(SetUniverses(outputs, index, u)) == ActiveOutputs(outputs)
    ensures ActiveUniverses(SetUniverses(outputs, index, u)) ==
            ActiveUniverses(outputs) + (if outputs[index].isActive then u - outputs[index].universes else 0)
  {
    var o := outputs[index].(universes := u);
    assert SetUniverses(outputs, index, u) == outputs[index := o];
    ActiveUniversesUpdate(outputs, index, o);
    FilterUpdate(outputs, index, o, IsActive);
  }

  /** What a user can do to the bank on the page: the `ON`/`OFF` switch of a card, or one of its
      stepper buttons, which reports its clamped value to `handleUniverseChange` for that card. */
  datatype BankEvent = ToggleClicked(index: int) | StepperClicked(index: int, button: LedOutput.StepperButton)

  /** Every output's universe count lies in the stepper's range [1, 8]. */
  predicate UniversesInRange(outputs: seq<OutputConfig>) {
    forall i :: 0 <= i < |outputs| ==> LedOutput.InRange(outputs[i].universes)
  }

  /** One event on the bank; a card index off the bank has no card and changes nothing. */
  function ApplyBank(outputs: seq<OutputConfig>, e: BankEvent): (r: seq<OutputConfig>)
    ensures |r| == |outputs|
    ensures UniversesInRange(outputs) ==> UniversesInRange(r)
    ensures forall j :: 0 <= j < |r| && j != e.index ==> r[j] == outputs[j]
  {
    match e
    case ToggleClicked(i) => Toggle(outputs, i)
    case StepperClicked(i, b) =>
      if 0 <= i < |outputs| then SetUniverses(outputs, i, LedOutput.Click(outputs[i].universes, b))
      else outputs
  }

  /** The bank after the events of `es`, in order. */
  function RunBank(outputs: seq<OutputConfig>, es: seq<BankEvent>): seq<OutputConfig>
    decreases |es|
  {
    if |es| == 0 then outputs else RunBank(ApplyBank(outputs, es[0]), es[1..])
  }

  /** No sequence of switch and stepper clicks takes a universe count out of [1, 8]. */
  lemma {:induction false} RunBankStaysInRange(outputs: seq<OutputConfig>, es: seq<BankEvent>)
    requires UniversesInRange(outputs)
    ensures UniversesInRange(RunBank(outputs, es))
    ensures |RunBank(outputs, es)| == |outputs|
    decreases |es|
  {
    if |es| > 0 {
      RunBankStaysInRange(ApplyBank(outputs, es[0]), es[1..]);
    }
  }

  /** From the mount bank, whatever the user clicks, all 32 outputs keep a universe count in [1, 8]. */
  lemma ReachableBankInRange(es: seq<BankEvent>)
    ensures |RunBank(InitialOutputs(), es)| == OutputCount
    ensures UniversesInRange(RunBank(InitialOutputs(), es))
  {
    RunBankStaysInRange(InitialOutputs(), es);
  }

  const DhcpAddress := "192.168.1.105"
  const BroadcastAddress := "2.255.255.255"

  /** `getCurrentIP`: the simulated DHCP lease in auto mode, the ART-NET broadcast address in
      broadcast mode, and the configured address in fixed mode. */
  function CurrentIP(config: NetworkConfig): (r: string)
    ensures config.mode == Auto ==> r == "192.168.1.105"
    ensures config.mode == Broadcast ==> r == "2.255.255.255"
    ensures config.mode == Fixed ==> r == config.ip
  {
    match config.mode
    case Auto => DhcpAddress
    case Broadcast => BroadcastAddress
    case Fixed => config.ip
  }

  /** On mount the network is in fixed mode, so the panel shows the configured 192.168.1.100. */
  lemma InitialIP()
    ensures CurrentIP(InitialNetwork) == "192.168.1.100"
  {
  }

  /** The dotted-quad text of four octets. */
  function Quad(a: nat, b: nat, c: nat, d: nat): string {
    NatToString(a) + "." + NatToString(b) + "." + NatToString(c) + "." + NatToString(d)
  }

  /** A canonical IPv4 address in dotted-decimal form. */
  ghost predicate IsIPv4(s: string) {
    exists a: nat, b: nat, c: nat, d: nat :: a < 256 && b < 256 && c < 256 && d < 256 && s == Quad(a, b, c, d)
  }

  /** The displayed address is a well-formed IPv4 address whenever the configured one is. */
  lemma CurrentIPIsIPv4(config: NetworkConfig)
    requires IsIPv4(config.ip)
    ensures IsIPv4(CurrentIP(config))
  {
    match config.mode
    case Auto =>
      assert NatToString(192) == "192" && NatToString(168) == "168";
      assert NatToString(1) == "1" && NatToString(105) == "105";
      assert DhcpAddress == Quad(192, 168, 1, 105);
    case Broadcast =>
      assert NatToString(2) == "2" && NatToString(255) == "255";
      assert BroadcastAddress == Quad(2, 255, 255, 255);
    case Fixed =>
  }
}

=== FILE: led_output.dfy ===
/** One output card: the `OUT nn` header, the CFG switch that shows the
    configuration panel, and the universe stepper whose buttons clamp to [1, 8]. */
module LedOutput {
  import opened Text

  const MinUniverses := 1
  const MaxUniverses := 8

  datatype StepperButton = Minus | Plus

  /** The card's own state. */
  datatype Card = Card(isConfiguring: bool)

  const InitialCard := Card(false)

  /** The `-` button's new count: one less, but never below 1. */
  function Decrement(u: int): (r: int)
    ensures r >= MinUniverses
    ensures u > MinUniverses ==> r == u - 1
    ensures u <= MinUniverses ==> r == MinUniverses
  {
    if MinUniverses > u - 1 then MinUniverses else u - 1
  }

  /** The `+` button's new count: one more, but never above 8. */
  function Increment(u: int): (r: int)
    ensures r <= MaxUniverses
    ensures u < MaxUniverses ==> r == u + 1
    ensures u >= MaxUniverses ==> r == MaxUniverses
  {
    if MaxUniverses < u + 1 then MaxUniverses else u + 1
  }

  predicate MinusDisabled(u: int) {
    u <= MinUniverses
  }

  predicate PlusDisabled(u: int) {
    u >= MaxUniverses
  }

  predicate InRange(u: int) {
    MinUniverses <= u <= MaxUniverses
  }

  /** A click: a disabled button does nothing, an enabled one reports its clamped value. The stepper
      buttons are rendered only inside the configuration panel, so a click presupposes `PanelShown`. */
  function Click(u: int, b: StepperButton): (r: int)
    ensures InRange(u) ==> InRange(r)
  {
    match b
    case Minus => if MinusDisabled(u) then u else Decrement(u)
    case Plus => if PlusDisabled(u) then u else Increment(u)
  }

  /** Within the range a button is disabled exactly when clicking it could not change the count,
      and an enabled button moves the count by exactly one. */
  lemma DisabledIffNoChange(u: int)
    requires InRange(u)
    ensures MinusDisabled(u) <==> Decrement(u) == u
    ensures PlusDisabled(u) <==> Increment(u) == u
    ensures !MinusDisabled(u) ==> Click(u, Minus) == u - 1
    ensures !PlusDisabled(u) ==> Click(u, Plus) == u + 1
  {
  }

  /** Within the range, skipping a disabled button changes nothing: a click is the clamp itself. */
  lemma ClickIsClamp(u: int)
    requires InRange(u)
    ensures Click(u, Minus) == Decrement(u)
    ensures Click(u, Plus) == Increment(u)
  {
  }

  /** `-` undoes `+` below the top, and `+` undoes `-` above the bottom. */
  lemma StepInverse(u: int)
    requires InRange(u)
    ensures u < MaxUniverses ==> Decrement(Increment(u)) == u
    ensures u > MinUniverses ==> Increment(Decrement(u)) == u
  {
  }

  /** The count after clicking the buttons of `bs` in order. */
  function Clicks(u: int, bs: seq<StepperButton>): int
    decreases |bs|
  {
    if |bs| == 0 then u else Clicks(Click(u, bs[0]), bs[1..])
  }

  /** Starting inside [1, 8], no sequence of clicks leaves it. */
  lemma {:induction false} ClicksStayInRange(u: int, bs: seq<StepperButton>)
    requires InRange(u)
    ensures InRange(Clicks(u, bs))
    decreases |bs|
  {
    if |bs| > 0 {
      ClicksStayInRange(Click(u, bs[0]), bs[1..]);
    }
  }

  /** CFG flips the configuration flag. */
  function ToggleConfig(c: Card): (r: Card)
    ensures PanelShown(r) != PanelShown(c)
  {
    Card(!c.isConfiguring)
  }

  /** Two CFG clicks restore the card. */
  lemma ToggleConfigTwice(c: Card)
    ensures ToggleConfig(ToggleConfig(c)) == c
  {
  }

  /** The configuration panel (with the stepper) is rendered exactly while configuring. */
  predicate PanelShown(c: Card) {
    c.isConfiguring
  }

  /** A card mounts with its configuration panel (and so the stepper) hidden. */
  lemma InitialCardHidesPanel()
    ensures !PanelShown(InitialCard)
    ensures PanelShown(ToggleConfig(InitialCard))
  {
  }

  /** The card header: `OUT ` and the output number zero-padded to two digits. */
  function Label(outputNumber: nat): (r: string)
    ensures |r| >= 6 && r[..4] == "OUT "
    ensures AllDigits(r[4..]) && DecimalValue(r[4..]) == outputNumber
    ensures outputNumber < 100 ==> |r| == 6
    ensures outputNumber >= 10 ==> r == "OUT " + IntToString(outputNumber)
  {
    var digits := PadStart(IntToString(outputNumber), 2, '0');
    PaddedNumberValue(outputNumber, 2);
    assert 10 <= outputNumber ==>
      NatToString(outputNumber) == NatToString(outputNumber / 10) + [DigitChar(outputNumber % 10)];
    assert ("OUT " + digits)[4..] == digits;
    "OUT " + digits
  }

  /** Every card of the bank (numbers 1 to 32) has a six-character header, and distinct cards have distinct headers. */
  lemma BankLabels(m: nat, n: nat)
    requires 1 <= m <= 32 && 1 <= n <= 32
    ensures |Label(n)| == 6
    ensures m != n ==> Label(m) != Label(n)
  {
    if Label(m) == Label(n) {
      assert Label(m)[4..] == Label(n)[4..];
    }
  }
}

=== FILE: sequences.dfy ===
/** The two array idioms the components use on their state: `Array.map` with an
    index test (a point update) and `Array.filter` followed by `.length` (a count). */
module Sequences {

  /** `s.map((x, j) => j === index ? f(x) : x)`: apply `f` at one position;
      an index outside the array matches nothing and changes nothing. */
  function MapAt<T>(s: seq<T>, index: int, f: T -> T): (r: seq<T>)
    ensures |r| == |s|
    ensures 0 <= index < |s| ==> r == s[index := f(s[index])]
    ensures !(0 <= index < |s|) ==> r == s
  {
    seq(|s|, j requires 0 <= j < |s| => if j == index then f(s[j]) else s[j])
  }

  /** `s.map(f)`: `f` applied to every element. */
  function MapAll<T, U>(s: seq<T>, f: T -> U): (r: seq<U>)
    ensures |r| == |s|
    ensures forall j :: 0 <= j < |s| ==> r[j] == f(s[j])
  {
    seq(|s|, j requires 0 <= j < |s| => f(s[j]))
  }

  /** `s.filter(p)`: the elements satisfying `p`. */
  function Filter<T>(s: seq<T>, p: T -> bool): (r: seq<T>)
    ensures |r| <= |s|
    ensures forall k :: 0 <= k < |r| ==> p(r[k]) && r[k] in s
  {
    if |s| == 0 then []
    else
      var front := Filter(s[..|s| - 1], p);
      if p(s[|s| - 1]) then front + [s[|s| - 1]] else front
  }

  /** Nothing that passes the test is dropped: an element of `s` satisfying `p` is in the result. */
  lemma {:induction false} FilterKeepsPassing<T>(s: seq<T>, p: T -> bool, x: T)
    requires x in s && p(x)
    ensures x in Filter(s, p)
    decreases |s|
  {
    var n := |s| - 1;
    if x != s[n] {
      assert x in s[..n];
      FilterKeepsPassing(s[..n], p, x);
    }
  }

  /** The positions whose element satisfies `p`. */
  function Positions<T>(s: seq<T>, p: T -> bool): set<int> {
    set i | 0 <= i < |s| && p(s[i])
  }

  /** `s.filter(p).length` counts exactly the positions satisfying `p`. */
  lemma {:induction false} FilterCountsPositions<T>(s: seq<T>, p: T -> bool)
    ensures |Filter(s, p)| == |Positions(s, p)|
    decreases |s|
  {
    if |s| > 0 {
      var n := |s| - 1;
      FilterCountsPositions(s[..n], p);
      var before := Positions(s[..n], p);
      assert forall i :: i in before <==> 0 <= i < n && p(s[i]);
      if p(s[n]) {
        assert Positions(s, p) == before + {n};
      } else {
        assert Positions(s, p) == before;
      }
    } else {
      assert Positions(s, p) == {};
    }
  }

  /** No element satisfies `p` exactly when the filtered array is empty. */
  lemma FilterEmpty<T>(s: seq<T>, p: T -> bool)
    ensures |Filter(s, p)| == 0 <==> forall i :: 0 <= i < |s| ==> !p(s[i])
  {
    FilterCountsPositions(s, p);
    if |Filter(s, p)| == 0 {
      assert Positions(s, p) == {};
    } else {
      var k :| k in Positions(s, p);
    }
  }

  /** Replacing one element changes the count by the change in that element's membership. */
  lemma {:induction false} FilterUpdate<T>(s: seq<T>, index: int, x: T, p: T -> bool)
    requires 0 <= index < |s|
    ensures |Filter(s[index := x], p)| ==
            |Filter(s, p)| - (if p(s[index]) then 1 else 0) + (if p(x) then 1 else 0)
    decreases |s|
  {
    var t := s[index := x];
    var n := |s| - 1;
    if index < n {
      assert t[..n] == s[..n][index := x];
      FilterUpdate(s[..n], index, x, p);
    } else {
      assert t[..n] == s[..n];
    }
  }
}

=== FILE: text.dfy ===
/** The handful of JavaScript string primitives the components rely on:
    `Number.prototype.toString` on integers, `String.prototype.padStart`,
    `toLowerCase` on ASCII letters and the `\s` character class. */
module Text {

  predicate IsDigit(c: char) {
    '0' <= c <= '9'
  }

  predicate AllDigits(s: string) {
    forall i :: 0 <= i < |s| ==> IsDigit(s[i])
  }

  function DigitChar(d: nat): (c: char)
    requires d < 10
    ensures IsDigit(c)
    ensures (c as int) - ('0' as int) == d
  {
    ((('0' as int) + d) as char)
  }

  function DigitValue(c: char): (d: nat)
    requires IsDigit(c)
    ensures d < 10
    ensures DigitChar(d) == c
  {
    (c as int) - ('0' as int)
  }

  /** Decimal rendering of a non-negative integer, most significant digit first. */
  function NatToString(n: nat): (s: string)
    ensures |s| >= 1
    ensures AllDigits(s)
    ensures s[0] == '0' ==> n == 0
    decreases n
  {
    if n < 10 then [DigitChar(n)] else NatToString(n / 10) + [DigitChar(n % 10)]
  }

  /** `n.toString()` for an integer-valued JavaScript number. */
  function IntToString(n: int): (s: string)
    ensures |s| >= 1
    ensures n >= 0 ==> AllDigits(s)
    ensures n < 0 ==> s[0] == '-' && AllDigits(s[1..])
    ensures n >= 0 && s[0] == '0' ==> n == 0
    ensures n < 0 ==> |s| >= 2 && s[1] != '0'
  {
    if n < 0 then "-" + NatToString(-n) else NatToString(n)
  }

  /** The number a string of decimal digits denotes (leading zeros allowed). */
  function DecimalValue(s: string): nat
    requires AllDigits(s)
  {
    if |s| == 0 then 0 else DecimalValue(s[..|s| - 1]) * 10 + DigitValue(s[|s| - 1])
  }

  /** The integer an optionally minus-signed digit string denotes. */
  function SignedValue(s: string): int
    requires |s| >= 1
    requires s[0] == '-' ==> AllDigits(s[1..])
    requires s[0] != '-' ==> AllDigits(s)
  {
    if s[0] == '-' then 0 - DecimalValue(s[1..]) as int else DecimalValue(s)
  }

  /** Rendering and reading back a natural number is the identity. */
  lemma {:induction false} NatToStringRoundTrip(n: nat)
    ensures DecimalValue(NatToString(n)) == n
    decreases n
  {
    if n >= 10 {
      var front := NatToString(n / 10);
      var s := front + [DigitChar(n % 10)];
      assert s[..|s| - 1] == front;
      NatToStringRoundTrip(n / 10);
    }
  }

  /** Rendering and reading back any integer is the identity. */
  lemma IntToStringRoundTrip(n: int)
    ensures SignedValue(IntToString(n)) == n
  {
    if n < 0 {
      NatToStringRoundTrip(-n);
      assert IntToString(n)[1..] == NatToString(-n);
    } else {
      NatToStringRoundTrip(n);
    }
  }

  function Pow10(k: nat): (r: nat)
    ensures r >= 1
  {
    if k == 0 then 1 else 10 * Pow10(k - 1)
  }

  /** A number below 10^k has at most k digits. */
  lemma {:induction false} NatToStringFits(n: nat, k: nat)
    ensures 1 <= k && n < Pow10(k) ==> |NatToString(n)| <= k
    decreases k
  {
    if 1 <= k && n < Pow10(k) && n >= 10 {
      assert k >= 2;
      assert n / 10 < Pow10(k - 1);
      NatToStringFits(n / 10, k - 1);
    }
  }

  /** `k` copies of `c`. */
  function Repeat(c: char, k: nat): (r: string)
    ensures |r| == k
    ensures forall i :: 0 <= i < k ==> r[i] == c
  {
    if k == 0 then [] else [c] + Repeat(c, k - 1)
  }

  /** `s.padStart(width, c)` with a one-character fill string. */
  function PadStart(s: string, width: int, c: char): (r: string)
    ensures |r| == if width > |s| then width else |s|
    ensures r[|r| - |s|..] == s
    ensures forall i :: 0 <= i < |r| - |s| ==> r[i] == c
  {
    if width <= |s| then s else Repeat(c, width - |s|) + s
  }

  /** A leading zero never changes the value of a digit string. */
  lemma {:induction false} LeadingZeroValue(s: string)
    requires AllDigits(s)
    ensures AllDigits("0" + s)
    ensures DecimalValue("0" + s) == DecimalValue(s)
    decreases |s|
  {
    var z := "0" + s;
    if |s| > 0 {
      assert z[..|z| - 1] == "0" + s[..|s| - 1];
      LeadingZeroValue(s[..|s| - 1]);
    }
  }

  /** Any number of leading zeros leaves the value of a digit string unchanged. */
  lemma {:induction false} LeadingZerosValue(k: nat, s: string)
    requires AllDigits(s)
    ensures AllDigits(Repeat('0', k) + s)
    ensures DecimalValue(Repeat('0', k) + s) == DecimalValue(s)
    decreases k
  {
    if k > 0 {
      var rest := Repeat('0', k - 1) + s;
      LeadingZerosValue(k - 1, s);
      LeadingZeroValue(rest);
      assert Repeat('0', k) + s == "0" + rest;
    } else {
      assert Repeat('0', k) + s == s;
    }
  }

  /** Zero-padding keeps the value: `padStart(w, '0')` of a decimal numeral reads back as the same number. */
  lemma ZeroPadValue(s: string, width: int)
    requires AllDigits(s)
    ensures AllDigits(PadStart(s, width, '0'))
    ensures DecimalValue(PadStart(s, width, '0')) == DecimalValue(s)
  {
    if width > |s| {
      LeadingZerosValue(width - |s|, s);
    }
  }

  /** The zero-padded rendering of a natural number reads back as that number. */
  lemma PaddedNumberValue(n: nat, width: int)
    ensures AllDigits(PadStart(NatToString(n), width, '0'))
    ensures DecimalValue(PadStart(NatToString(n), width, '0')) == n
  {
    ZeroPadValue(NatToString(n), width);
    NatToStringRoundTrip(n);
  }

  predicate IsUpperAscii(c: char) {
    'A' <= c <= 'Z'
  }

  /** `toLowerCase` restricted to ASCII: `A`..`Z` become `a`..`z`, every other character is kept. */
  function LowerChar(c: char): (r: char)
    ensures !IsUpperAscii(r)
    ensures !IsUpperAscii(c) ==> r == c
    ensures IsUpperAscii(c) ==> (r as int) - (c as int) == 32
  {
    if IsUpperAscii(c) then ((c as int) + 32) as char else c
  }

  function ToLower(s: string): (r: string)
    ensures |r| == |s|
    ensures forall i :: 0 <= i < |s| ==> r[i] == LowerChar(s[i])
  {
    seq(|s|, i requires 0 <= i < |s| => LowerChar(s[i]))
  }

  /** Lower-casing twice is lower-casing once, and leaves no upper-case letter. */
  lemma ToLowerIdempotent(s: string)
    ensures ToLower(ToLower(s)) == ToLower(s)
    ensures forall i :: 0 <= i < |s| ==> !IsUpperAscii(ToLower(s)[i])
  {
  }

  /** The JavaScript regular-expression class `\s`: the ECMAScript WhiteSpace and LineTerminator
      code points (tab, line feed, vertical tab, form feed, carriage return, space, no-break space,
      the Unicode space separators, line and paragraph separators, and the byte order mark). */
  predicate IsSpace(c: char) {
    ('\t' <= c <= '\r') || c == ' ' || c == '\U{00A0}' || c == '\U{1680}'
    || ('\U{2000}' <= c <= '\U{200A}')
    || c == '\U{2028}' || c == '\U{2029}' || c == '\U{202F}' || c == '\U{205F}'
    || c == '\U{3000}' || c == '\U{FEFF}'
  }

  /** The ECMAScript WhiteSpace code points outside the space separators: tab, vertical tab,
      form feed and the byte order mark (ZWNBSP). */
  const FormatSpaces: set<char> := {'\t', '\U{000B}', '\U{000C}', '\U{FEFF}'}

  /** The Unicode general category Zs (space separators), which ECMAScript WhiteSpace includes. */
  const SpaceSeparators: set<char> := {
    ' ', '\U{00A0}', '\U{1680}',
    '\U{2000}', '\U{2001}', '\U{2002}', '\U{2003}', '\U{2004}', '\U{2005}',
    '\U{2006}', '\U{2007}', '\U{2008}', '\U{2009}', '\U{200A}',
    '\U{202F}', '\U{205F}', '\U{3000}' }

  /** The ECMAScript LineTerminator code points: line feed, carriage return, line and paragraph separator. */
  const LineTerminators: set<char> := {'\n', '\r', '\U{2028}', '\U{2029}'}

  /** `IsSpace` is exactly `\s` as ECMAScript defines it: WhiteSpace (the format spaces and Zs) or LineTerminator. */
  lemma IsSpaceIsClass(c: char)
    ensures IsSpace(c) <==> c in FormatSpaces + SpaceSeparators + LineTerminators
  {
  }

  /** Lower-casing never creates or removes white space, so it commutes with white-space handling. */
  lemma LowerKeepsSpace(c: char)
    ensures IsSpace(LowerChar(c)) <==> IsSpace(c)
  {
  }

  predicate NoSpace(s: string) {
    forall i :: 0 <= i < |s| ==> !IsSpace(s[i])
  }
}

=== FILE: wrappers.dfy ===
/** The optional-value datatype shared by the model. `None` stands for a
    JavaScript `undefined` or `null`, or for an `Array.find` that found nothing. */
module Wrappers {

  datatype Option<+T> = None | Some(value: T)

  /** JavaScript `a[0]`: the first element of an array, or `undefined` when it is empty. */
  function First<T>(s: seq<T>): (r: Option<T>)
    ensures r.None? <==> |s| == 0
    ensures r.Some? ==> r.value == s[0]
  {
    if |s| == 0 then None else Some(s[0])
  }
}
